=== FILE: README.md ===
# Event Grid subscription scanner — a Dafny model

The repository is a command-line tool. It finds subscription declarations in compiled
Azure Functions assemblies and then creates or updates the matching Azure Event Grid
event subscriptions. Declarations are the `FunctionAppSubscription` and
`WebhookSubscription` attributes on functions.

The repository holds two copies of the tool:

- **The newer tool** (`Bum.EventGrid.Subscriptions.Scanner`) scans one target assembly.
- **The older tool** (`Bum.EventGrid.SubscriptionsScanner`) scans a solution folder. It
  finds the assemblies through their `function.json` files and can narrow them with a
  file-name filter.

This project models the logic between discovering the attributes and calling Azure.
Everything is stated in Dafny as immutable datatypes and pure functions.

| module | file | what it models |
|---|---|---|
| `Wrappers` | wrappers.dfy | `Option` and `Result` (CSharpFunctionalExtensions' `Result<T>`; a nullable reference as `Option`) |
| `Text` | text.dfy | ordinal string primitives: `Contains`, `StartsWith`, `EndsWith`, `IndexOf`, `Replace` (all occurrences), join and split on a character |
| `Annotations` | annotations.dfy | the declaration variants and `EventResourceType` |
| `ResourceNameResolver` | resource_name_resolver.dfy | `Resolve`: leftmost `{key}` token with key characters `[a-zA-Z_-]`; replace every `{environment}` only when that key is `environment` |
| `ResourceMatcher` | resource_matcher.dfy | the resource-id templates, the two-entry provider/collection lookup, and parsers that invert the templates |
| `BackoffStrategy` | backoff_strategy.dfy | `ConcurrentRandom.Uniform` over an explicit stream of draws in `[0, 1)`; `DecorrelatedJitterBackoff` and `Enumerate` |
| `RetryPolicy` | retry_policy.dfy | the behaviour the tool relies on from Polly's `WaitAndRetryAsync`, stated as a model of that library |
| `AssemblyScanner` | assembly_scanner.dfy | the newer scan: reflection as data, `SafeGetMethod` fault isolation, order-preserving flattening, the dependency path of the `Resolving` handler |
| `Program` | program.dfy | request construction, dispatch with retry, `Combine`, and the dry-run short-circuit (newer tool) |
| `EnumerableExtensions` | enumerable_extensions.dfy | `None`, `NullOrNone`, `DistinctBy`, LINQ `Distinct`, `Split` |
| `StringExtensions` | string_extensions.dfy | the pure members of the older tool's `StringExtensions` |
| `SolutionScanner` | solution_scanner.dfy | the older tool's path pipeline, its filter pattern, and the per-assembly scan |
| `SolutionProgram` | solution_program.dfy | the older tool's `UpdateSubscriptions` |

The two `Program.cs` files differ only in `UpdateSubscriptions`. The older one scans a
solution with a filter; the newer one scans a single assembly. `ApplySubscriptions`,
`CreateWebhookSubscription` and `CreateFunctionAppSubscription` are line-for-line the same
in both copies:

- Bum.EventGrid.SubscriptionsScanner/Program.cs:78-158;
- Bum.EventGrid.Subscriptions.Scanner/Program.cs:77-157.

So one set of members models them, and the rows below cite the newer copy. The same holds
for `ScanSubscriptions(Assembly)` and `SafeGetMethod`:

- Bum.EventGrid.SubscriptionsScanner/AssemblyScanner.cs:65-95;
- Bum.EventGrid.Subscriptions.Scanner/AssemblyScanner.cs:33-63.

Abstractions:

- **Azure client.** It is a function `Client<R> = (UpsertRequest, nat) -> Attempt<R>`. It gives the
  result of the k-th attempt of a request: a returned subscription or a thrown exception.
  The upserts of different declarations run concurrently and independently in the source, so
  the model gives the i-th declaration its own client, `clients(i)`. Two declarations with the
  same request can therefore get different answers.
- **Randomness.** It is a `DrawStream = nat -> Draw`, an explicit sequence of draws in `[0, 1)`.
  A seed fixes the stream, so "same seed, same delays" becomes "same draws, same delays".
  Each webhook request gets its own stream (`draws: nat -> DrawStream`).
- **Reflection.** An `Assembly` is a value: its exported types, their methods, and for each method
  either its custom attributes or the message of the exception reading them threw.
- **Directory walk, `function.json` and loading.** In the older tool these are parameters: the
  list of `function.json` paths, a reader giving the parsed `FunctionJson` of a path,
  `Path.GetFullPath`, and a loader from path to `Assembly`.
- **Delays.** They are `real` milliseconds.

## Model

| member | source | states |
|---|---|---|
| `ResourceNameResolver.KeyEnd` | Bum.EventGrid.Subscriptions.Scanner/ResourceNameResolver.cs:10 | the key run `[a-zA-Z_-]*` after a `{` is maximal: every character in it is a key character and the next one is not |
| `ResourceNameResolver.FirstTokenFrom` | Bum.EventGrid.Subscriptions.Scanner/ResourceNameResolver.cs:10-11 | the token found is a `{key}` token and no token starts earlier; none found means no token from that position on |
| `ResourceNameResolver.FirstToken` | Bum.EventGrid.Subscriptions.Scanner/ResourceNameResolver.cs:11-17 | `Regex.Match` finds nothing exactly when the template has no token; otherwise it finds the leftmost one |
| `ResourceNameResolver.LeftmostIsFirst` | Bum.EventGrid.Subscriptions.Scanner/ResourceNameResolver.cs:11-17 | the leftmost token is the one the match reports, so the match is determined by the template |
| `ResourceNameResolver.Resolve` | Bum.EventGrid.Subscriptions.Scanner/ResourceNameResolver.cs:8-20 | no token: unchanged (the empty key is not `environment`); leftmost key `environment`: every `{environment}` replaced by `env`; any other leftmost key: unchanged |
| `ResourceNameResolver.NoTokenWithoutBraces` | Bum.EventGrid.Subscriptions.Scanner/ResourceNameResolver.cs:10 | a template lacking `{` or `}` has no token, so it resolves to itself |
| `ResourceNameResolver.ResolveKeepsOut` | Bum.EventGrid.Subscriptions.Scanner/ResourceNameResolver.cs:18-20 | a character in neither the template nor the environment name is not in the resolved name (no `/` appears from nowhere) |
| `ResourceNameResolver.ResolveReplacesEveryOccurrence` | Bum.EventGrid.Subscriptions.Scanner/ResourceNameResolver.cs:18-19 | text made of token-free parts joined by `{environment}` resolves to the same parts joined by `env`: every occurrence is replaced, nothing else changes |
| `ResourceNameResolver.ResolveKeepsOtherKey` | Bum.EventGrid.Subscriptions.Scanner/ResourceNameResolver.cs:18-20 | when the leftmost token has another key, the template comes back unchanged even if `{environment}` follows |
| `ResourceNameResolver.ResolveResourceGroup` | Bum.EventGrid.Subscriptions.Scanner/Program.cs:108 | `Resolve("feedme-{environment}", e) == "feedme-" + e` for every `e` |
| `ResourceNameResolver.ResolveTrailingPlaceholder` | Bum.EventGrid.Subscriptions.Scanner/ResourceNameResolver.cs:8-20 | a brace-free prefix followed by `{environment}` resolves to the prefix followed by `env` |
| `ResourceNameResolver.ResolveSampleTopic` | Bum.EventGrid.Subscrioptions.AzureFunctionsIsolatedSample/Trigger.cs:24 | the sample's `topic-name-{environment}` resolves to `topic-name-prod` in `prod` |
| `ResourceNameResolver.DigitKeyIsNoToken` | Bum.EventGrid.Subscriptions.Scanner/ResourceNameResolver.cs:10 | digits are not key characters: `{env1}-` holds no token |
| `ResourceNameResolver.ResolveSkipsDigitKey` | Bum.EventGrid.Subscriptions.Scanner/ResourceNameResolver.cs:10-19 | in `{env1}-{environment}` the first match is `{environment}`, so the result is `{env1}-prod` |
| `ResourceNameResolver.ResolveUnchangedExamples` | Bum.EventGrid.Subscriptions.Scanner/ResourceNameResolver.cs:18-20 | a token-free name and a name whose only key is `other` are unchanged |
| `ResourceNameResolver.ResolveIsCaseSensitive` | Bum.EventGrid.Subscriptions.Scanner/ResourceNameResolver.cs:18 | a leftmost `{Environment}` is not the environment key, so a later `{environment}` stays |
| `ResourceNameResolver.ResolveEmptyKey` | Bum.EventGrid.Subscriptions.Scanner/ResourceNameResolver.cs:10-20 | `{}` is a token with the empty key and blocks a later `{environment}` |
| `ResourceMatcher.ResourceTypeOf` | Bum.EventGrid.Subscriptions.Scanner/ResourceMatcher.cs:21-33 | the lookup inverts the provider/collection switch: a found type maps to the pair, and any type mapping to the pair is the one found |
| `ResourceMatcher.LookupDeterminesType` | Bum.EventGrid.Subscriptions.Scanner/ResourceMatcher.cs:21-33 | the provider/collection pair determines the resource type (`Microsoft.Storage`/`StorageAccounts`, `Microsoft.EventGrid`/`topics`) |
| `ResourceMatcher.ResourceIdJoin` | Bum.EventGrid.Subscriptions.Scanner/ResourceMatcher.cs:14-20 | the event-source id is `subscriptions`, the subscription, `resourceGroups`, the group, `providers`, the provider, the collection and the name, joined by `/` after a leading `/` |
| `ResourceMatcher.FunctionAppIdJoin` | Bum.EventGrid.Subscriptions.Scanner/ResourceMatcher.cs:7-13 | the function id is the fixed segments with subscription, group, app and function name at fixed places, joined by `/` |
| `ResourceMatcher.ParseResourceId` | Bum.EventGrid.Subscriptions.Scanner/ResourceMatcher.cs:14-20 | a parsed event-source id rebuilds exactly the id it came from, from slash-free parts |
| `ResourceMatcher.ParseFunctionAppId` | Bum.EventGrid.Subscriptions.Scanner/ResourceMatcher.cs:7-13 | a parsed function id rebuilds exactly the id it came from, from slash-free parts |
| `ResourceMatcher.ResourceIdRoundTrip` | Bum.EventGrid.Subscriptions.Scanner/ResourceMatcher.cs:20 | arguments are inserted verbatim: when none holds `/`, parsing the event-source id gives back type, name, group and subscription |
| `ResourceMatcher.FunctionAppIdRoundTrip` | Bum.EventGrid.Subscriptions.Scanner/ResourceMatcher.cs:13 | when no argument holds `/`, parsing the function id gives back subscription, group, app and function |
| `BackoffStrategy.ScaleBounds` | Bum.EventGrid.Subscriptions.Scanner/BackoffStrategy.cs:59 | a width times a draw in `[0, 1)` lies in `[0, w)` for positive `w` and in `(w, 0]` for negative `w` |
| `BackoffStrategy.Uniform` | Bum.EventGrid.Subscriptions.Scanner/BackoffStrategy.cs:54-60 | `a == b` gives `a` and consumes no draw; otherwise one draw is consumed and the value lies in `[a, b)`, or in `(b, a]` when `b < a` |
| `BackoffStrategy.Jitter` | Bum.EventGrid.Subscriptions.Scanner/BackoffStrategy.cs:106-113 | `count` values, each in `[min, max]`; the first at most `min(max, 3·ms)`, each later one at most `min(max, 3·previous)`; every value, the first and each later one, is strictly below its ceiling when that ceiling exceeds `min` |
| `BackoffStrategy.Schedule` | Bum.EventGrid.Subscriptions.Scanner/BackoffStrategy.cs:92-114 | length `retry`, or 1 when fast with `retry < 1`; a fast schedule starts with 0; every jittered value is in `[min, max]` |
| `BackoffStrategy.Enumerate` | Bum.EventGrid.Subscriptions.Scanner/BackoffStrategy.cs:92-114 | the loop with its fast-first zero yields exactly the schedule |
| `BackoffStrategy.DecorrelatedJitterBackoff` | Bum.EventGrid.Subscriptions.Scanner/BackoffStrategy.cs:76-90 | fails exactly on invalid arguments, naming `minDelay`, then `maxDelay`, then `retryCount` in that order; otherwise exactly `retryCount` delays, 0 first when fast, the rest in `[minDelay, maxDelay]` |
| `BackoffStrategy.JitterDeterministic` | Bum.EventGrid.Subscriptions.Scanner/BackoffStrategy.cs:26-31 | two draw streams that agree on the draws used give the same delays: a seed determines the output |
| `BackoffStrategy.JitterZeroMin` | Bum.EventGrid.Subscriptions.Scanner/BackoffStrategy.cs:106-110 | with `min == 0` every jittered value is 0 and no draw is consumed |
| `BackoffStrategy.JitterEqualBounds` | Bum.EventGrid.Subscriptions.Scanner/BackoffStrategy.cs:57 | with `min == max` every jittered value is `min` and no draw is consumed |
| `BackoffStrategy.TripledMono` | Bum.EventGrid.Subscriptions.Scanner/BackoffStrategy.cs:109 | the tripling bound is monotone in its start value |
| `BackoffStrategy.JitterGrowth` | Bum.EventGrid.Subscriptions.Scanner/BackoffStrategy.cs:106-112 | the k-th jittered value is at most `ms·3^(k+1)`: the ceiling at most triples per step |
| `BackoffStrategy.WebhookBackoff` | Bum.EventGrid.Subscriptions.Scanner/Program.cs:99-101 | the webhook plan (5 s, 30 s, 4, fast) is valid: 4 delays, 0 first, the others between 5000 and 30000 ms |
| `RetryPolicy.RunFrom` | Bum.EventGrid.Subscriptions.Scanner/Program.cs:97-102 | from attempt `k`: runs until the first return or the plan is spent, waits the plan's delays in order, and throws only after `|plan| + 1` attempts |
| `RetryPolicy.ExecuteWithRetry` | Bum.EventGrid.Subscriptions.Scanner/Program.cs:97-102 | 1 to `|plan| + 1` attempts; all but the last threw; the waits are the plan's first delays; a final exception means every attempt was used |
| `RetryPolicy.ExecuteOnce` | Bum.EventGrid.Subscriptions.Scanner/Program.cs:133 | one attempt, no wait, its outcome is the action's |
| `RetryPolicy.RetryStopsAtFirstReturn` | Bum.EventGrid.Subscriptions.Scanner/Program.cs:97-102 | if attempt `j` returns, no more than `j + 1` attempts run and the outcome is a return |
| `RetryPolicy.RetryExhausts` | Bum.EventGrid.Subscriptions.Scanner/Program.cs:97-102 | if every attempt throws, the last exception is rethrown after `|plan| + 1` attempts and every delay was waited |
| `AssemblyScanner.OfType` | Bum.EventGrid.Subscriptions.Scanner/AssemblyScanner.cs:54-56 | keeps exactly the subscription attributes, dropping every other attribute |
| `AssemblyScanner.OfTypeAppend` | Bum.EventGrid.Subscriptions.Scanner/AssemblyScanner.cs:54-56 | `OfType` keeps order: it distributes over concatenation |
| `AssemblyScanner.SafeGetMethod` | Bum.EventGrid.Subscriptions.Scanner/AssemblyScanner.cs:50-63 | fails exactly when reading the attributes throws, with message `Failed for method` and the name; otherwise holds exactly the method's subscription attributes |
| `AssemblyScanner.CollectAppend` | Bum.EventGrid.Subscriptions.Scanner/AssemblyScanner.cs:36-45 | the flattened result for two runs of methods is the concatenation of their results, in method order |
| `AssemblyScanner.FaultyMethodIsSkipped` | Bum.EventGrid.Subscriptions.Scanner/AssemblyScanner.cs:42-45 | a method whose attribute read throws contributes nothing and does not stop the scan of the methods after it |
| `AssemblyScanner.CollectMembership` | Bum.EventGrid.Subscriptions.Scanner/AssemblyScanner.cs:36-45 | a declaration is found exactly when some method whose read succeeded carries it |
| `AssemblyScanner.NoDeduplication` | Bum.EventGrid.Subscriptions.Scanner/AssemblyScanner.cs:36-45 | two methods with the same declaration give it twice |
| `AssemblyScanner.ScanAssembly` | Bum.EventGrid.Subscriptions.Scanner/AssemblyScanner.cs:33-48 | never fails; holds exactly the declarations of methods of exported types whose read succeeded |
| `AssemblyScanner.ScanSubscriptions` | Bum.EventGrid.Subscriptions.Scanner/AssemblyScanner.cs:15-30 | the public scan never produces a `Failure` and finds the declarations of the loaded target assembly |
| `AssemblyScanner.GetFileName` | Bum.EventGrid.Subscriptions.Scanner/AssemblyScanner.cs:23 | `Path.GetFileName`: the longest separator-free suffix of the path |
| `AssemblyScanner.DependencyPath` | Bum.EventGrid.Subscriptions.Scanner/AssemblyScanner.cs:23 | as written: fails (`Replace` with an empty old value) exactly when the file name is empty; otherwise ends with `\` + dependency + `.dll` |
| `AssemblyScanner.DirectoryPart` | Bum.EventGrid.Subscriptions.Scanner/AssemblyScanner.cs:23 | the directory part followed by the file name is the path |
| `AssemblyScanner.DependencyPathInDirectory` | Bum.EventGrid.Subscriptions.Scanner/AssemblyScanner.cs:23 | corrected: the directory part of the assembly path, `\`, the dependency, `.dll` |
| `AssemblyScanner.DependencyPathInDirectoryShape` | Bum.EventGrid.Subscriptions.Scanner/AssemblyScanner.cs:23 | the corrected path starts with the assembly's directory and its file name is the dependency's `.dll` |
| `AssemblyScanner.GetFileNameOfSuffix` | Bum.EventGrid.Subscriptions.Scanner/AssemblyScanner.cs:23 | the file name of a directory ending in a separator plus a separator-free name is that name |
| `AssemblyScanner.DependencyPathAgreesOnPlainPaths` | Bum.EventGrid.Subscriptions.Scanner/AssemblyScanner.cs:23 | when the file name occurs only once, as written and corrected agree |
| `AssemblyScanner.DependencyPathStripsDirectories` | Bum.EventGrid.Subscriptions.Scanner/AssemblyScanner.cs:23 | as written, `C:\x.dll\x.dll` also loses its directory named `x.dll` |
| `AssemblyScanner.DependencyPathInDirectoryKeepsDirectories` | Bum.EventGrid.Subscriptions.Scanner/AssemblyScanner.cs:23 | corrected, `C:\x.dll\x.dll` keeps its directory `C:\x.dll\` |
| `Program.SourceId` | Bum.EventGrid.Subscriptions.Scanner/Program.cs:105-109 | the event source is `GetResourceId(type, Resolve(resourceName, env), "feedme-" + env, subscriptionId)` |
| `Program.WebhookRequest` | Bum.EventGrid.Subscriptions.Scanner/Program.cs:104-121 | webhook upsert: source scope, unresolved name, endpoint destination, subject and event types copied, no labels |
| `Program.FunctionAppRequest` | Bum.EventGrid.Subscriptions.Scanner/Program.cs:133-155 | function-app upsert: source scope, unresolved name, function id from resolved app and function names under `feedme-` + env, copied filter, labels `["autogenerated"]` |
| `Program.LabelsOnlyOnFunctionApps` | Bum.EventGrid.Subscriptions.Scanner/Program.cs:110-121 | a request carries labels exactly when it is for a function app, and has a webhook destination exactly when it is for a webhook |
| `Program.RequestScopeRoundTrip` | Bum.EventGrid.Subscriptions.Scanner/Program.cs:104-109 | with a slash-free name template, environment and subscription, the request scope parses back to type, resolved name, `feedme-` + env and subscription |
| `Program.FunctionDestinationRoundTrip` | Bum.EventGrid.Subscriptions.Scanner/Program.cs:141-147 | with slash-free app and function templates, environment and subscription, the function destination parses back to subscription, `feedme-` + env, resolved app and function names |
| `Program.WebhookPlan` | Bum.EventGrid.Subscriptions.Scanner/Program.cs:99-101 | four delays, the first 0, the others between 5 s and 30 s |
| `Program.SendWithRetry` | Bum.EventGrid.Subscriptions.Scanner/Program.cs:97-102 | the request is sent at most `|plan| + 1` times, each earlier try threw, and the outcome is the last try's |
| `Program.CreateWebhookSubscription` | Bum.EventGrid.Subscriptions.Scanner/Program.cs:90-124 | the webhook request is tried 1 to 5 times with the webhook plan's waits; an exception escapes only after the fifth |
| `Program.CreateFunctionAppSubscription` | Bum.EventGrid.Subscriptions.Scanner/Program.cs:126-157 | the function-app request is tried exactly once, without retry |
| `Program.CreateSubscription` | Bum.EventGrid.Subscriptions.Scanner/Program.cs:82-87 | the switch sends the variant's request: a function app once with no wait; a webhook at most five times, waiting the webhook plan's delays in order and throwing only after the fifth run throws; every attempt before the last threw and the outcome is the client's answer to the last one |
| `Program.WebhookGivesUpAfterFiveRuns` | Bum.EventGrid.Subscriptions.Scanner/Program.cs:97-102 | a webhook upsert that always throws runs five times and faults with the fifth exception |
| `Program.ApplySubscriptions` | Bum.EventGrid.Subscriptions.Scanner/Program.cs:77-89 | one dispatch per declaration in declaration order, each with that declaration's request and attempt bound, and each answered by its own client `clients(i)`: earlier attempts threw, the outcome is the answer to the last; a function app never waits, and a webhook waits a prefix of the plan drawn from `draws(i)` and throws only after five runs |
| `Program.Combine` | Bum.EventGrid.Subscriptions.Scanner/Program.cs:88-89 | completes with every returned subscription in declaration order, or faults with the exception of the first upsert in declaration order that threw (all before it returned); never a `Failure` result |
| `Program.CombineCompletesIffAllReturned` | Bum.EventGrid.Subscriptions.Scanner/Program.cs:88-89 | the combination completes exactly when every upsert returned |
| `Program.UpdateFromScan` | Bum.EventGrid.Subscriptions.Scanner/Program.cs:71-75 | a failed scan is passed on and a dry run gives an empty success, both sending nothing; otherwise one dispatch per declaration in order, each for that declaration's request and answered by its client, and the outcome is `Combine` of the dispatches |
| `Program.CompletedUpdateReturnsStored` | Bum.EventGrid.Subscriptions.Scanner/Program.cs:77-89 | a completed update returns, at index `i`, exactly the subscription that `clients(i)` stored on the last run of the `i`-th request |
| `Program.UpdateSubscriptions` | Bum.EventGrid.Subscriptions.Scanner/Program.cs:52-76 | dry run: empty success and no upsert; never a `Failure` result; otherwise one dispatch per declaration found, in scan order, each for that declaration's request and answered by its client, and the outcome is `Combine` of the dispatches |
| `Program.SampleAppName` | Bum.EventGrid.Subscrioptions.AzureFunctionsIsolatedSample/Trigger.cs:23 | the sample's `sample-function-app-{environment}` resolves to `sample-function-app-prod` |
| `Program.SampleNames` | Bum.EventGrid.Subscrioptions.AzureFunctionsIsolatedSample/Trigger.cs:19-25 | the sample's topic, app and function names in `prod` |
| `Program.SampleTriggerRequest` | Bum.EventGrid.Subscrioptions.AzureFunctionsIsolatedSample/Trigger.cs:19-25 | the sample declaration's upsert in `prod`: its scope, name, destination, filter and labels |
| `EnumerableExtensions.NoneIffEmpty` | Bum.EventGrid.Subscriptions.Scanner/EnumerableExtensions.cs:8 | `None` holds exactly of the empty sequence |
| `EnumerableExtensions.NullOrNoneCases` | Bum.EventGrid.Subscriptions.Scanner/EnumerableExtensions.cs:9 | `NullOrNone` holds for null without looking further, and agrees with `None` otherwise |
| `EnumerableExtensions.KeysOfSeen` | Bum.EventGrid.SubscriptionsScanner/AssemblyScanner.cs:111-116 | the hash set after `n` elements holds exactly the keys of those elements |
| `EnumerableExtensions.DistinctBy` | Bum.EventGrid.SubscriptionsScanner/AssemblyScanner.cs:109-119 | the loop yields the first element of each key, in source order |
| `EnumerableExtensions.FirstsByKeySubsequence` | Bum.EventGrid.SubscriptionsScanner/AssemblyScanner.cs:109-119 | the result is an order-preserving subsequence of the source |
| `EnumerableExtensions.FirstsByKeyMembers` | Bum.EventGrid.SubscriptionsScanner/AssemblyScanner.cs:109-119 | every element of the result is the first of its key in the source, and every such first element is in the result |
| `EnumerableExtensions.FirstsByKeyKeys` | Bum.EventGrid.SubscriptionsScanner/AssemblyScanner.cs:109-119 | keys in the result are pairwise distinct and every key of the source appears |
| `EnumerableExtensions.Distinct` | Bum.EventGrid.SubscriptionsScanner/AssemblyScanner.cs:36 | no element twice, none lost, none added, source order kept |
| `EnumerableExtensions.ChunkCountPositive` | Bum.EventGrid.SubscriptionsScanner/AssemblyScanner.cs:124-129 | for `size > 0` the count is the ceiling of `n / size`: zero exactly for `n == 0`, otherwise `(count-1)·size < n <= count·size` |
| `EnumerableExtensions.ChunkCountNegative` | Bum.EventGrid.SubscriptionsScanner/AssemblyScanner.cs:124-129 | for `size < 0`, C#'s truncating `/` and `%` give at most one chunk, exactly when `0 < n < -size` |
| `EnumerableExtensions.ChunkAt` | Bum.EventGrid.SubscriptionsScanner/AssemblyScanner.cs:133 | `Skip(k·size).Take(size)` is the slice from `k·size` to `min(k·size + size, n)` |
| `EnumerableExtensions.FlattenChunks` | Bum.EventGrid.SubscriptionsScanner/AssemblyScanner.cs:131-134 | the first `m` chunks concatenate to the first `min(m·size, n)` elements |
| `EnumerableExtensions.ChunkSizes` | Bum.EventGrid.SubscriptionsScanner/AssemblyScanner.cs:131-134 | every chunk but the last has `size` elements and each has 1 to `size` |
| `EnumerableExtensions.CollectChunks` | Bum.EventGrid.SubscriptionsScanner/AssemblyScanner.cs:131-134 | the loop collects exactly the first `count` chunks, none when `count` is negative |
| `EnumerableExtensions.Split` | Bum.EventGrid.SubscriptionsScanner/AssemblyScanner.cs:120-137 | size 0 is a division by zero; size > 0 gives chunks that concatenate back to the input, empty exactly for empty input, ceiling many, full except the last; negative size gives `[[]]` or `[]` |
| `StringExtensions.ExistsVersusDoesNotExist` | Bum.EventGrid.SubscriptionsScanner/AssemblyScanner.cs:177-179 | `Exists` and `DoesNotExist` are not complements: both hold exactly of non-empty white-space text, such as `" "` |
| `StringExtensions.UseNewIfNotEmpty` | Bum.EventGrid.SubscriptionsScanner/AssemblyScanner.cs:172-173 | picks `other` exactly when it exists (non-null, non-empty), and the original in every other case; the result exists if either does |
| `StringExtensions.IfEmpty` | Bum.EventGrid.SubscriptionsScanner/AssemblyScanner.cs:175-176 | picks `other` exactly when the original is null or white space, and the original otherwise; a blank result can only be `other` |
| `StringExtensions.BlankChoices` | Bum.EventGrid.SubscriptionsScanner/AssemblyScanner.cs:172-176 | `" "` counts as new for `UseNewIfNotEmpty` but as empty for `IfEmpty` |
| `StringExtensions.UseNewIsSwappedIfEmpty` | Bum.EventGrid.SubscriptionsScanner/AssemblyScanner.cs:172-176 | `UseNewIfNotEmpty(o, x)` equals `IfEmpty(x, o)` for every `x` except non-empty white space, where the first picks `x` and the second `o` |
| `StringExtensions.IsQuotedIff` | Bum.EventGrid.SubscriptionsScanner/AssemblyScanner.cs:153 | quoted exactly when it starts and ends with `"`; the single character `"` is quoted |
| `StringExtensions.ContainsAnyFacts` | Bum.EventGrid.SubscriptionsScanner/AssemblyScanner.cs:164-165 | true exactly when some value occurs in the text; the empty value always occurs; no values, never |
| `StringExtensions.Partition` | Bum.EventGrid.SubscriptionsScanner/AssemblyScanner.cs:181 | the prefix before the first `-`, or the whole text when there is none |
| `StringExtensions.PartitionCases` | Bum.EventGrid.SubscriptionsScanner/AssemblyScanner.cs:181 | a dash-free text is its own partition, and text before a dash is the partition of the joined text |
| `StringExtensions.ReplaceFirstOccurenceOrOriginal` | Bum.EventGrid.SubscriptionsScanner/AssemblyScanner.cs:189-208 | any blank argument or an absent old value gives the original; otherwise the first ordinal occurrence is replaced by the new value |
| `StringExtensions.SingleOccurrence` | Bum.EventGrid.SubscriptionsScanner/AssemblyScanner.cs:196-207 | around its only occurrence, a text splits into pattern-free prefix and suffix |
| `StringExtensions.ReplaceFirstIsReplaceAllWhenSingle` | Bum.EventGrid.SubscriptionsScanner/AssemblyScanner.cs:189-208 | when the old value occurs exactly once, replacing the first occurrence equals replacing all; the old value may overlap itself (such as `aba`) |
| `StringExtensions.Truncate` | Bum.EventGrid.SubscriptionsScanner/AssemblyScanner.cs:210-223 | `maxLength <= 0` gives `""`; blank text comes back as is; otherwise the prefix of length `min(len, maxLength)` |
| `StringExtensions.TruncateIdempotent` | Bum.EventGrid.SubscriptionsScanner/AssemblyScanner.cs:210-223 | truncating twice to the same length is truncating once |
| `StringExtensions.ExistsAndEqualsSymmetric` | Bum.EventGrid.SubscriptionsScanner/AssemblyScanner.cs:225-226 | symmetric, and true only of two equal existing strings |
| `StringExtensions.Prefix` | Bum.EventGrid.SubscriptionsScanner/AssemblyScanner.cs:229 | the prefix, then the separator, then the text: starts with the prefix, ends with the text, holds the separator between them, and has no other characters (null as empty) |
| `StringExtensions.Suffix` | Bum.EventGrid.SubscriptionsScanner/AssemblyScanner.cs:230 | the text, then the separator, then the suffix: starts with the text, ends with the suffix, holds the separator between them, and has no other characters |
| `StringExtensions.DashSuffix` | Bum.EventGrid.SubscriptionsScanner/AssemblyScanner.cs:231 | the text, a single `-`, then the suffix |
| `StringExtensions.PrefixSuffixDuality` | Bum.EventGrid.SubscriptionsScanner/AssemblyScanner.cs:228-231 | prefixing `s` with `x` is suffixing `x` with `s`; the default prefix is the dash suffix; the default suffix is plain concatenation |
| `SolutionScanner.LocateAssemblyPathOrEmpty` | Bum.EventGrid.SubscriptionsScanner/AssemblyScanner.cs:40-49 | a null or blank script file gives `""`; otherwise the script file made absolute against the `function.json` path |
| `SolutionScanner.FilteringRegex` | Bum.EventGrid.SubscriptionsScanner/AssemblyScanner.cs:96-98 | one atom per filter character: `*` becomes "any run", every other character is literal |
| `SolutionScanner.LiteralAtomsMatch` | Bum.EventGrid.SubscriptionsScanner/AssemblyScanner.cs:96-98 | a filter without `*` matches exactly its own text |
| `SolutionScanner.LiteralFilter` | Bum.EventGrid.SubscriptionsScanner/AssemblyScanner.cs:31-35 | a filter without `*` keeps exactly the paths ending with it, or with it and a final line feed (the `$` anchor) |
| `SolutionScanner.StarFilterKeepsAll` | Bum.EventGrid.SubscriptionsScanner/AssemblyScanner.cs:31-35 | the filter `*` keeps every path |
| `SolutionScanner.WhereSpec` | Bum.EventGrid.SubscriptionsScanner/AssemblyScanner.cs:26-31 | a `Where` step keeps exactly the accepted elements, in source order |
| `SolutionScanner.Locations` | Bum.EventGrid.SubscriptionsScanner/AssemblyScanner.cs:28 | one located path per `function.json`, position by position |
| `SolutionScanner.FilteredSound` | Bum.EventGrid.SubscriptionsScanner/AssemblyScanner.cs:26-35 | every path kept by the pipeline is non-empty, passes the filter, and is the location of a file whose path contains neither `output` nor `api.metadata` (anywhere, not only as a folder name) |
| `SolutionScanner.FilteredComplete` | Bum.EventGrid.SubscriptionsScanner/AssemblyScanner.cs:26-35 | every such location is kept |
| `SolutionScanner.AssemblyPathsSpec` | Bum.EventGrid.SubscriptionsScanner/AssemblyScanner.cs:23-36 | the assembly paths are exactly the non-empty, filter-accepted locations of non-excluded `function.json` files, each once |
| `SolutionScanner.EmptyLocationDropped` | Bum.EventGrid.SubscriptionsScanner/AssemblyScanner.cs:30 | the empty location is never scanned: the check is on the string, not on the file system |
| `SolutionScanner.ScanAssembliesMembers` | Bum.EventGrid.SubscriptionsScanner/AssemblyScanner.cs:51-62 | holds exactly the declarations found in the listed assemblies |
| `SolutionScanner.ScanAssembliesSingle` | Bum.EventGrid.SubscriptionsScanner/AssemblyScanner.cs:55-59 | one assembly contributes its own scan, in its order |
| `SolutionScanner.ScanAssembliesAppend` | Bum.EventGrid.SubscriptionsScanner/AssemblyScanner.cs:55-59 | like `SelectMany`, the scan of `a + b` is the scan of `a` followed by the scan of `b`: order and multiplicity are kept |
| `SolutionScanner.ScanAssembliesAround` | Bum.EventGrid.SubscriptionsScanner/AssemblyScanner.cs:55-59 | the declarations of one assembly sit between those of the assemblies before and after it |
| `SolutionScanner.ScanSolution` | Bum.EventGrid.SubscriptionsScanner/AssemblyScanner.cs:23-38 | never fails, and holds exactly the declarations of the assemblies the pipeline selects |
| `SolutionScanner.ScanSolutionAroundPath` | Bum.EventGrid.SubscriptionsScanner/AssemblyScanner.cs:36-38 | the declarations of the `i`-th selected assembly appear, in their order and multiplicity, between those of the earlier and later selected assemblies |
| `SolutionProgram.UpdateSubscriptions` | Bum.EventGrid.SubscriptionsScanner/Program.cs:53-77 | dry run: empty success and no upsert; never a `Failure` result; otherwise one dispatch per declaration found in the solution, in scan order, each for that declaration's request and answered by its client, and the outcome is `Combine` of the dispatches |
| `SolutionProgram.NothingFoundSendsNothing` | Bum.EventGrid.SubscriptionsScanner/Program.cs:65-76 | when every `function.json` is excluded, blank or filtered out, nothing is sent and the result is an empty success |

## Left out

- Reflection and assembly loading are not modelled. This covers `AssemblyLoadContext`,
  `LoadFromAssemblyPath`, the `Resolving` handler's load and `Unload`. An assembly is given as
  data, and the `Resolving` handler is modelled only through the path it builds.
- The file system and JSON parsing are parameters. This covers `Directory.GetFiles`,
  `File.ReadAllTextAsync`, `JsonConvert`, `Path.GetFullPath` and `Directory.GetParent`.
- A `function.json` that deserializes to null is not modelled. There the source dereferences
  null and throws; the model always has a `FunctionJson`.
- Exceptions from file reading are not modelled. Neither are exceptions from loading an
  assembly or from `GetExportedTypes`: the source lets them escape.
- Azure authentication and the network are not modelled. The upsert is the `Client` parameter.
- Polly's `WaitAndRetryAsync` and CSharpFunctionalExtensions' `Combine`, `Bind`, `Map` and `Tap`
  are library code. Their behaviour is stated in `RetryPolicy` and `Program.Combine` as a
  model of those libraries, not derived from their code. `Combine` is modelled as faulting
  with the exception of the first upsert, in declaration order, that threw.
- `Task` scheduling and concurrency are not modelled, nor the locking in `ConcurrentRandom`.
- SubscriptionAttribute: the string properties `ResourceName`, `FunctionAppName` and
  `FunctionName` are never null in the model. In the source an attribute that leaves one unset
  carries null, and `ResourceNameResolver.Resolve(null, env)` throws `ArgumentNullException` at
  `Regex.Match` (ResourceNameResolver.cs:11). On the webhook path that exception is inside the
  retried action, so it runs five times (four retries). On the function-app path the task faults, and
  so does `Combine`. The same holds for a null `Name`, `Endpoint` or `EventTypes`, which reach
  the client unchecked.
- Text: Dafny's `string` is a sequence of Unicode scalar values, while a .NET `string` is a
  sequence of UTF-16 code units. The model's lengths and positions count scalars. This covers
  `StringExtensions.Truncate`'s `Length` and `Substring(0, maxLength)` (AssemblyScanner.cs:210-223),
  `IndexOf` positions, and the `ReplaceFirstOccurenceOrOriginal` splice. On text outside the
  Basic Multilingual Plane the source counts two units per character and can split a
  surrogate pair; the model cannot express that.
- StringExtensions.Truncate: its length bound is stated in Unicode scalars, not in the UTF-16
  code units the source counts, for the reason given in the line above.
- Program.CreateWebhookSubscription: each webhook's retry plan draws from its own stream
  (`draws(i)` for the i-th declaration), while the source shares one random source between
  concurrent webhooks. Only the bounds are stated, not which draw goes to which webhook.
- Floating-point rounding of `double` and `TimeSpan` is not modelled; delays are exact `real`
  milliseconds.
- Logging (Serilog), JSON pretty-printing, and the command-line option parsing are I/O and are
  not modelled.
- The base `SubscriptionAttribute` is not modelled as a declaration of its own. In C# it is not
  abstract, so a bare one reaches the switch in `ApplySubscriptions`, which has no default arm
  and throws. The model has only the two concrete variants.
- `ResourceMatcher`'s switches throw for an undefined enum value. The datatype has exactly
  the two constructors, so this case cannot arise in the model.
- Some `StringExtensions` members rely on foreign libraries or randomness, and are not
  modelled: `GetRandomString`, `ToBase64`, `FromBase64`, `IsBase64Image`, `RemoveHtmlTags`,
  `HtmlDecode` and `IsValidUrl`.
- `Primary` is not modelled; it is the identity.
- StringExtensions.IsQuotedIff: `StartsWith` and `EndsWith` with a string argument are
  culture-sensitive in .NET. The model compares ordinally.
- EnumerableExtensions.Distinct: LINQ's `Distinct` is documented as unordered. The model takes
  the implementation's first-occurrence order.
- SolutionScanner.LiteralFilter: the regex semantics cover `Regex.Escape` with the `*` rewrite
  only, that is literal characters and `.*`. `.` excludes a line feed and `$` is not multiline,
  as in .NET's defaults. Case-insensitive or culture-specific matching does not arise.
- The directory walk's order is taken as given (the order of `files`).
- Drive-relative or other special path forms are not modelled. `GetFileName` treats `\` and
  `/` as separators.

## Behaviour of the source worth noting

- With `fastFirst` the backoff still has exactly `retryCount` delays, the zero taking one slot.
- Only webhook upserts are retried; function-app upserts run once.
- Discovered declarations are never de-duplicated; only the older tool's assembly paths are.
- `Resolve` replaces every occurrence of `{environment}`, not just the first.

## Findings

| source | as written | input that shows it | evidently intended | confidence | as-written member | corrected member |
|---|---|---|---|---|---|---|
| Bum.EventGrid.Subscriptions.Scanner/AssemblyScanner.cs:23 | the dependency path is the assembly path with every occurrence of its file name removed, then `\`, the dependency name and `.dll` | assembly path `C:\x.dll\x.dll`, dependency `dep`: the directory `x.dll` is removed too, giving `C:\\` + `\dep.dll` | the dependency is looked up in the assembly's own directory: `C:\x.dll\` + `\dep.dll` | not executed | `AssemblyScanner.DependencyPathStripsDirectories` | `AssemblyScanner.DependencyPathInDirectoryKeepsDirectories` |

=== FILE: annotations.dfy ===
/** The subscription declarations a function carries as attributes: the common
    `SubscriptionAttribute` shape and its two destination variants. */
module Annotations {
  import opened Wrappers

  /** The kind of Azure resource that is the source of the events. */
  datatype EventResourceType = StorageAccount | EventGridTopic

  /** `FunctionAppSubscriptionAttribute` and `WebhookSubscriptionAttribute`. Both carry the
      common fields of `SubscriptionAttribute`: the subscription `name`, the `subject` prefix
      filter (unset in the sample, hence optional), the source `resourceType`, the source
      `resourceName` template (may hold `{environment}`) and the `eventTypes` to match. */
  datatype SubscriptionAttribute =
    | FunctionAppSubscription(
        name: string, subject: Option<string>, resourceType: EventResourceType,
        resourceName: string, eventTypes: seq<string>,
        functionName: string, functionAppName: string)
    | WebhookSubscription(
        name: string, subject: Option<string>, resourceType: EventResourceType,
        resourceName: string, eventTypes: seq<string>,
        endpoint: string)
}

=== FILE: assembly_scanner.dfy ===
/** Discovery of subscription declarations in a compiled assembly (`AssemblyScanner`).
    Reflection is replaced by data: an assembly is its exported types, a type is its methods,
    and a method carries the outcome of reading its custom attributes, which can throw (for
    instance when an attribute's type cannot be loaded). */
module AssemblyScanner {
  import opened Wrappers
  import opened Text
  import opened Annotations

  /** A custom attribute on a method: a subscription declaration or anything else. */
  datatype CustomAttribute = Subscription(spec: SubscriptionAttribute) | Other(typeName: string)

  /** A method and what `GetCustomAttributes()` gives for it: its attributes, or the message of
      the exception it throws. */
  datatype MethodInfo = MethodInfo(name: string, customAttributes: Result<seq<CustomAttribute>, string>)

  datatype ExportedType = ExportedType(name: string, methods: seq<MethodInfo>)

  datatype Assembly = Assembly(fullName: string, exportedTypes: seq<ExportedType>)

  /** `OfType<SubscriptionAttribute>()`: the subscription declarations, in order. */
  function OfType(attrs: seq<CustomAttribute>): (specs: seq<SubscriptionAttribute>)
    ensures |specs| <= |attrs|
    ensures forall s :: s in specs <==> Subscription(s) in attrs
  {
    if |attrs| == 0 then []
    else
      var rest := OfType(attrs[1..]);
      assert forall s :: Subscription(s) in attrs <==> attrs[0] == Subscription(s) || Subscription(s) in attrs[1..];
      match attrs[0]
      case Subscription(s) => [s] + rest
      case Other(_) => rest
  }

  /** `OfType` keeps order across concatenation. */
  lemma {:induction false} OfTypeAppend(a: seq<CustomAttribute>, b: seq<CustomAttribute>)
    ensures OfType(a + b) == OfType(a) + OfType(b)
    decreases |a|
  {
    if |a| > 0 {
      assert (a + b)[1..] == a[1..] + b;
      OfTypeAppend(a[1..], b);
    } else {
      assert a + b == b;
    }
  }

  /** `SafeGetMethod`: the method's subscription declarations, or, when reading its attributes
      throws, a failure naming the method. */
  function SafeGetMethod(info: MethodInfo): (r: Result<seq<SubscriptionAttribute>, string>)
    ensures r.Failure? <==> info.customAttributes.Failure?
    ensures r.Failure? ==> r.error == "Failed for method " + info.name
    ensures r.Success? ==> forall s :: s in r.value <==> Subscription(s) in info.customAttributes.value
  {
    match info.customAttributes
    case Success(attrs) => Success(OfType(attrs))
    case Failure(_) => Failure("Failed for method " + info.name)
  }

  /** `GetExportedTypes().SelectMany(t => t.GetMethods())`: every method, type by type. */
  function Methods(types: seq<ExportedType>): seq<MethodInfo> {
    if |types| == 0 then [] else types[0].methods + Methods(types[1..])
  }

  /** `.Select(SafeGetMethod).Where(a => a.IsSuccess).SelectMany(a => a.Value)`. */
  function CollectSubscriptions(methods: seq<MethodInfo>): seq<SubscriptionAttribute> {
    if |methods| == 0 then []
    else
      var head := SafeGetMethod(methods[0]);
      (if head.Success? then head.value else []) + CollectSubscriptions(methods[1..])
  }

  /** The scan distributes over the method list: the result for two runs of methods is the
      result for the first followed by the result for the second. */
  lemma {:induction false} CollectAppend(a: seq<MethodInfo>, b: seq<MethodInfo>)
    ensures CollectSubscriptions(a + b) == CollectSubscriptions(a) + CollectSubscriptions(b)
    decreases |a|
  {
    if |a| > 0 {
      assert (a + b)[1..] == a[1..] + b;
      CollectAppend(a[1..], b);
    } else {
      assert a + b == b;
    }
  }

  /** A method whose attributes cannot be read contributes nothing and does not stop the
      scan: the methods around it are scanned as if it were absent. */
  lemma FaultyMethodIsSkipped(before: seq<MethodInfo>, m: MethodInfo, after: seq<MethodInfo>)
    requires m.customAttributes.Failure?
    ensures CollectSubscriptions(before + [m] + after) == CollectSubscriptions(before) + CollectSubscriptions(after)
  {
    assert CollectSubscriptions([m]) == [] by {
      assert [m][1..] == [];
    }
    assert CollectSubscriptions(before + [m]) == CollectSubscriptions(before) by {
      CollectAppend(before, [m]);
      assert CollectSubscriptions(before) + [] == CollectSubscriptions(before);
    }
    CollectAppend(before + [m], after);
  }

  /** Some method whose attributes could be read carries the declaration `s`. */
  predicate Declares(methods: seq<MethodInfo>, s: SubscriptionAttribute) {
    exists i :: 0 <= i < |methods| && methods[i].customAttributes.Success?
      && Subscription(s) in methods[i].customAttributes.value
  }

  /** A declaration is found exactly when some readable method carries it; other attributes
      never show up. */
  lemma {:induction false} CollectMembership(methods: seq<MethodInfo>, s: SubscriptionAttribute)
    ensures s in CollectSubscriptions(methods) <==> Declares(methods, s)
    decreases |methods|
  {
    if |methods| > 0 {
      CollectMembership(methods[1..], s);
      if s in CollectSubscriptions(methods) {
        var head := SafeGetMethod(methods[0]);
        if !(head.Success? && s in head.value) {
          var i :| 0 <= i < |methods[1..]| && methods[1..][i].customAttributes.Success?
            && Subscription(s) in methods[1..][i].customAttributes.value;
          assert methods[i + 1] == methods[1..][i];
        }
      } else {
        forall i | 0 <= i < |methods| && methods[i].customAttributes.Success?
          ensures Subscription(s) !in methods[i].customAttributes.value
        {
          if i > 0 {
            assert methods[1..][i - 1] == methods[i];
          }
        }
      }
    }
  }

  /** `CollectMembership` for every declaration at once. */
  lemma CollectMembershipAll(methods: seq<MethodInfo>)
    ensures forall s :: s in CollectSubscriptions(methods) <==> Declares(methods, s)
  {
    forall s ensures s in CollectSubscriptions(methods) <==> Declares(methods, s) {
      CollectMembership(methods, s);
    }
  }

  /** Declarations are never de-duplicated: two methods that declare the same subscription
      yield it twice. */
  lemma NoDeduplication(m1: MethodInfo, m2: MethodInfo, s: SubscriptionAttribute)
    requires m1.customAttributes == Success([Subscription(s)])
    requires m2.customAttributes == Success([Subscription(s)])
    ensures CollectSubscriptions([m1, m2]) == [s, s]
  {
    assert OfType([Subscription(s)]) == [s] by {
      assert [Subscription(s)][1..] == [];
    }
    assert CollectSubscriptions([m2]) == [s] by {
      assert [m2][1..] == [];
    }
    assert [m1, m2][1..] == [m2];
  }

  /** `ScanSubscriptions(Assembly)`: every declaration on every readable method of every
      exported type, in order. The result is never a failure. */
  function ScanAssembly(assembly: Assembly): (r: Result<seq<SubscriptionAttribute>, string>)
    ensures r.Success?
    ensures forall s :: s in r.value <==> Declares(Methods(assembly.exportedTypes), s)
  {
    CollectMembershipAll(Methods(assembly.exportedTypes));
    Success(CollectSubscriptions(Methods(assembly.exportedTypes)))
  }

  /** `ScanSubscriptions(string)`: load the assembly at the path (loading is a parameter; a
      load that throws is outside this model) and scan it. */
  function ScanSubscriptions(assemblyPath: string, load: string -> Assembly): (r: Result<seq<SubscriptionAttribute>, string>)
    ensures r.Success?
    ensures forall s :: s in r.value <==> s in ScanAssembly(load(assemblyPath)).value
  {
    ScanAssembly(load(assemblyPath))
  }

  // --- The dependency path of the `Resolving` handler ---

  predicate IsDirectorySeparator(c: char) {
    c == '\\' || c == '/'
  }

  /** `Path.GetFileName` with Windows separators: the text after the last separator. */
  function GetFileName(path: string): (name: string)
    ensures |name| <= |path| && EndsWith(path, name)
    ensures forall c :: c in name ==> !IsDirectorySeparator(c)
    ensures |name| < |path| ==> IsDirectorySeparator(path[|path| - |name| - 1])
  {
    if |path| == 0 then ""
    else if IsDirectorySeparator(path[|path| - 1]) then ""
    else
      var init := GetFileName(path[..|path| - 1]);
      assert path[..|path| - 1][|path| - 1 - |init|..] == path[|path| - 1 - |init|..|path| - 1];
      init + [path[|path| - 1]]
  }

  /** Why the handler fails: `Replace` refuses an empty file name (a path ending in a
      separator). */
  datatype PathError = EmptyOldValue

  /** The path the `Resolving` handler loads a dependency from, as written: every occurrence of
      the assembly's file name is removed from its path, then `\` and the dependency's name
      with `.dll` are appended. */
  function DependencyPath(assemblyPath: string, dependency: string): (r: Result<string, PathError>)
    ensures r.Failure? <==> GetFileName(assemblyPath) == ""
    ensures r.Success? ==> EndsWith(r.value, "\\" + dependency + ".dll")
  {
    var fileName := GetFileName(assemblyPath);
    if fileName == "" then Failure(EmptyOldValue)
    else
      var p := ReplaceAll(assemblyPath, fileName, "") + "\\" + dependency + ".dll";
      assert p[|p| - |"\\" + dependency + ".dll"|..] == "\\" + dependency + ".dll";
      Success(p)
  }

  /** The directory part of a path: everything before its file name, separator included. */
  function DirectoryPart(path: string): (dir: string)
    ensures dir + GetFileName(path) == path
  {
    path[..|path| - |GetFileName(path)|]
  }

  /** The dependency path as evidently intended: the dependency's file in the assembly's own
      directory. */
  function DependencyPathInDirectory(assemblyPath: string, dependency: string): (r: Result<string, PathError>)
    ensures r.Failure? <==> GetFileName(assemblyPath) == ""
    ensures r.Success? ==> r.value == DirectoryPart(assemblyPath) + "\\" + dependency + ".dll"
  {
    if GetFileName(assemblyPath) == "" then Failure(EmptyOldValue)
    else Success(DirectoryPart(assemblyPath) + "\\" + dependency + ".dll")
  }

  /** The corrected path keeps the assembly's directory and names only the dependency: it
      starts with the directory part and adds no further separator after the one it inserts. */
  lemma DependencyPathInDirectoryShape(assemblyPath: string, dependency: string)
    requires GetFileName(assemblyPath) != ""
    requires forall c :: c in dependency ==> !IsDirectorySeparator(c)
    ensures var r := DependencyPathInDirectory(assemblyPath, dependency).value;
      StartsWith(r, DirectoryPart(assemblyPath))
      && GetFileName(r) == dependency + ".dll"
  {
    var dir := DirectoryPart(assemblyPath);
    var prefix, name := dir + "\\", dependency + ".dll";
    var r := DependencyPathInDirectory(assemblyPath, dependency).value;
    assert r == prefix + name;
    assert r[..|dir|] == dir;
    assert prefix[|prefix| - 1] == '\\';
    DllNameFree(dependency);
    GetFileNameOfSuffix(prefix, name);
  }

  /** Appending `.dll` to a name without separators adds none. */
  lemma DllNameFree(dependency: string)
    requires forall c :: c in dependency ==> !IsDirectorySeparator(c)
    ensures forall c :: c in dependency + ".dll" ==> !IsDirectorySeparator(c)
  {
    forall c | c in dependency + ".dll" ensures !IsDirectorySeparator(c) {
      assert c in dependency || c in ".dll";
    }
  }

  /** The file name of `prefix + name` is `name` when `prefix` ends in a separator and `name`
      holds none. */
  lemma {:induction false} GetFileNameOfSuffix(prefix: string, name: string)
    requires |prefix| > 0 && IsDirectorySeparator(prefix[|prefix| - 1])
    requires forall c :: c in name ==> !IsDirectorySeparator(c)
    ensures GetFileName(prefix + name) == name
    decreases |name|
  {
    if |name| == 0 {
      assert prefix + name == prefix;
    } else {
      var init := name[..|name| - 1];
      assert (prefix + name)[..|prefix + name| - 1] == prefix + init;
      assert forall c :: c in init ==> c in name;
      GetFileNameOfSuffix(prefix, init);
      assert init + [name[|name| - 1]] == name;
    }
  }

  /** When the file name occurs only at the end of the path, the path as written is the
      intended one. */
  lemma DependencyPathAgreesOnPlainPaths(dir: string, fileName: string, dependency: string)
    requires |dir| > 0 && IsDirectorySeparator(dir[|dir| - 1])
    requires |fileName| > 0 && forall c :: c in fileName ==> !IsDirectorySeparator(c)
    requires HeadUnique(fileName) && !Contains(dir, fileName)
    ensures DependencyPath(dir + fileName, dependency) == DependencyPathInDirectory(dir + fileName, dependency)
  {
    GetFileNameOfSuffix(dir, fileName);
    assert DirectoryPart(dir + fileName) == dir;
    assert ReplaceAll(dir + fileName, fileName, "") == dir by {
      ReplaceAllAfter(dir, fileName, "", "");
      assert dir + fileName + "" == dir + fileName;
      assert ReplaceAll("", fileName, "") == "";
      assert dir + "" + "" == dir;
    }
  }

  /** The file name of the example path. */
  lemma ExampleFileName()
    ensures GetFileName("C:\\x.dll\\x.dll") == "x.dll"
  {
    GetFileNameOfSuffix("C:\\x.dll\\", "x.dll");
    assert "C:\\x.dll\\" + "x.dll" == "C:\\x.dll\\x.dll";
  }

  /** `Replace` removes both occurrences of the file name from the example path. */
  lemma ExampleReplace()
    ensures ReplaceAll("C:\\x.dll\\x.dll", "x.dll", "") == "C:\\\\"
  {
    var parts := ["C:\\", "\\", ""];
    assert JoinWith(parts, "x.dll") == "C:\\x.dll\\x.dll";
    assert forall i :: 0 <= i < |parts| ==> !Contains(parts[i], "x.dll");
    ReplaceAllJoin(parts, "x.dll", "");
    assert JoinWith(parts, "") == "C:\\\\";
  }

  /** The path as written, from the file name and the stripped path. */
  lemma DependencyPathOf(path: string, dependency: string, fileName: string, stripped: string)
    requires GetFileName(path) == fileName && fileName != ""
    requires ReplaceAll(path, fileName, "") == stripped
    ensures DependencyPath(path, dependency) == Success(stripped + "\\" + dependency + ".dll")
  {
  }

  /** The path as written goes wrong when the file name also occurs in a directory name:
      for `C:\x.dll\x.dll` both occurrences are removed, so the dependency is looked for in
      `C:\\` rather than in `C:\x.dll\`. */
  lemma DependencyPathStripsDirectories()
    ensures DependencyPath("C:\\x.dll\\x.dll", "dep") == Success("C:\\\\" + "\\" + "dep" + ".dll")
  {
    ExampleFileName();
    ExampleReplace();
    DependencyPathOf("C:\\x.dll\\x.dll", "dep", "x.dll", "C:\\\\");
  }

  /** The intended path, from the directory part. */
  lemma DependencyPathInDirectoryOf(path: string, dependency: string, dir: string)
    requires GetFileName(path) != "" && DirectoryPart(path) == dir
    ensures DependencyPathInDirectory(path, dependency) == Success(dir + "\\" + dependency + ".dll")
  {
  }

  /** For the same path the intended dependency path stays in `C:\x.dll\`. */
  lemma DependencyPathInDirectoryKeepsDirectories()
    ensures DependencyPathInDirectory("C:\\x.dll\\x.dll", "dep") == Success("C:\\x.dll\\" + "\\" + "dep" + ".dll")
  {
    ExampleFileName();
    assert DirectoryPart("C:\\x.dll\\x.dll") == "C:\\x.dll\\";
    DependencyPathInDirectoryOf("C:\\x.dll\\x.dll", "dep", "C:\\x.dll\\");
  }
}

=== FILE: backoff_strategy.dfy ===
/** The decorrelated-jitter retry delays (`BackoffStrategy.DecorrelatedJitterBackoff`).
    Durations are real numbers of milliseconds. The random generator is a `DrawStream`: its
    `k`-th value is what the `k`-th `NextDouble` call returns. */
module BackoffStrategy {
  import opened Wrappers

  /** A value of `NextDouble`: at least 0.0 and below 1.0. */
  type Draw = r: real | 0.0 <= r < 1.0

  /** The successive values the generator hands out. */
  type DrawStream = nat -> Draw

  function Min(a: real, b: real): real {
    if a <= b then a else b
  }

  /** The product of a span and a draw. */
  function Scale(w: real, d: Draw): real {
    w * d
  }

  lemma SignPosNeg(x: real, y: real)
    requires x > 0.0 && y < 0.0
    ensures x * y < 0.0
  {
  }

  lemma SignNegNeg(x: real, y: real)
    requires x < 0.0 && y < 0.0
    ensures x * y > 0.0
  {
  }

  lemma Distrib(x: real, y: real)
    ensures x * (y - 1.0) == x * y - x
  {
  }

  /** A span scaled by a draw stays on the same side of zero and never covers the whole
      span. */
  lemma ScaleBounds(w: real, d: Draw)
    ensures w > 0.0 ==> 0.0 <= Scale(w, d) < w
    ensures w < 0.0 ==> w < Scale(w, d) <= 0.0
  {
    var p := w * d;
    var q := w * (d - 1.0);
    assert q == p - w by { Distrib(w, d); }
    if w > 0.0 {
      assert q < 0.0 by { SignPosNeg(w, d - 1.0); }
      assert p >= 0.0;
    } else if w < 0.0 {
      assert q > 0.0 by { SignNegNeg(w, d - 1.0); }
      assert p <= 0.0;
    }
  }

  /** A value together with the index of the next unused draw. */
  datatype Sample = Sample(value: real, next: nat)

  /** `ConcurrentRandom.Uniform(a, b)`: `a` itself when the bounds coincide (no draw is taken),
      otherwise `a + (b - a) * NextDouble()`. */
  function Uniform(a: real, b: real, draws: DrawStream, next: nat): (s: Sample)
    ensures a == b ==> s == Sample(a, next)
    ensures a != b ==> s.next == next + 1
    ensures a < b ==> a <= s.value < b
    ensures b < a ==> b < s.value <= a
  {
    if a == b then Sample(a, next)
    else
      var d := draws(next);
      ScaleBounds(b - a, d);
      Sample(a + Scale(b - a, d), next + 1)
  }

  /** The upper bound of the next delay: three times the previous one, capped by `max`. */
  function Ceiling(max: real, ms: real): real {
    Min(max, ms * 3.0)
  }

  /** Delays together with the index of the next unused draw. */
  datatype Delays = Delays(values: seq<real>, next: nat)

  /** The jittered part of the sequence: `count` delays, each drawn uniformly between `min`
      and the ceiling set by the delay before it (`ms` for the first). Every delay lies
      between `min` and `max` and is at most three times its predecessor; a delay reaches
      its ceiling only when the ceiling is `min` itself. */
  function Jitter(min: real, max: real, ms: real, count: nat, draws: DrawStream, next: nat): (r: Delays)
    requires 0.0 <= min <= ms && min <= max
    ensures |r.values| == count
    ensures next <= r.next <= next + count
    ensures forall k :: 0 <= k < |r.values| ==> min <= r.values[k] <= max
    ensures count > 0 ==> r.values[0] <= Ceiling(max, ms)
    ensures count > 0 && min < Ceiling(max, ms) ==> r.values[0] < Ceiling(max, ms)
    ensures forall k :: 0 < k < |r.values| ==> r.values[k] <= Ceiling(max, r.values[k - 1])
    ensures forall k :: 0 < k < |r.values| && min < Ceiling(max, r.values[k - 1]) ==>
              r.values[k] < Ceiling(max, r.values[k - 1])
    decreases count
  {
    if count == 0 then Delays([], next)
    else
      var s := Uniform(min, Ceiling(max, ms), draws, next);
      var rest := Jitter(min, max, s.value, count - 1, draws, s.next);
      Delays([s.value] + rest.values, rest.next)
  }

  /** The number of jittered delays: the retries left once the immediate first one, if any,
      is counted. */
  function JitterCount(retry: int, fast: bool): nat {
    var first := if fast then 1 else 0;
    if retry > first then retry - first else 0
  }

  /** The whole delay sequence of `Enumerate`: an immediate retry first when `fast`, then the
      jittered delays, starting from `min` with the generator's first draw. It holds `retry`
      delays (one with an immediate first retry even when `retry` is 0). */
  function Schedule(min: real, max: real, retry: int, fast: bool, draws: DrawStream): (ds: seq<real>)
    requires 0.0 <= min <= max
    ensures |ds| == if fast && retry < 1 then 1 else if retry < 0 then 0 else retry
    ensures fast ==> ds[0] == 0.0
    ensures forall k :: (if fast then 1 else 0) <= k < |ds| ==> min <= ds[k] <= max
  {
    var prefix := if fast then [0.0] else [];
    var jitter := Jitter(min, max, min, JitterCount(retry, fast), draws, 0).values;
    assert forall k :: |prefix| <= k < |prefix| + |jitter| ==> (prefix + jitter)[k] == jitter[k - |prefix|];
    prefix + jitter
  }

  /** One step of the jitter: the first delay, then the rest from it. */
  lemma JitterStep(min: real, max: real, ms: real, count: nat, draws: DrawStream, next: nat)
    requires 0.0 <= min <= ms && min <= max && count > 0
    ensures var s := Uniform(min, Ceiling(max, ms), draws, next);
      Jitter(min, max, ms, count, draws, next).values
        == [s.value] + Jitter(min, max, s.value, count - 1, draws, s.next).values
  {
  }

  /** Moving one delay from the pending jitter to the emitted prefix keeps the whole. */
  lemma EmitOne(done: seq<real>, min: real, max: real, ms: real, count: nat, draws: DrawStream, next: nat)
    requires 0.0 <= min <= ms && min <= max && count > 0
    ensures var s := Uniform(min, Ceiling(max, ms), draws, next);
      (done + [s.value]) + Jitter(min, max, s.value, count - 1, draws, s.next).values
        == done + Jitter(min, max, ms, count, draws, next).values
  {
    JitterStep(min, max, ms, count, draws, next);
  }

  /** `Enumerate`: the loop of the source, which computes `Schedule`. */
  method Enumerate(min: real, max: real, retry: int, fast: bool, draws: DrawStream) returns (delays: seq<real>)
    requires 0.0 <= min <= max
    ensures delays == Schedule(min, max, retry, fast, draws)
  {
    ghost var total := Schedule(min, max, retry, fast, draws);
    var i := 0;
    delays := [];
    if fast {
      i := i + 1;
      delays := delays + [0.0];
    }
    var ms := min;
    var next: nat := 0;
    ghost var pending: nat := JitterCount(retry, fast);
    while i < retry
      invariant pending == if retry > i then retry - i else 0
      invariant min <= ms <= max
      invariant delays + Jitter(min, max, ms, pending, draws, next).values == total
      decreases retry - i
    {
      EmitOne(delays, min, max, ms, pending, draws, next);
      var s := Uniform(min, Ceiling(max, ms), draws, next);
      delays := delays + [s.value];
      ms, next := s.value, s.next;
      i := i + 1;
      pending := pending - 1;
    }
  }

  /** Why `DecorrelatedJitterBackoff` refuses its arguments: the `ArgumentOutOfRangeException`
      naming the offending parameter. */
  datatype BackoffError = ArgumentOutOfRange(paramName: string)

  /** `DecorrelatedJitterBackoff`: checks the arguments in the order of the source (minimum,
      then maximum, then retry count), yields nothing for zero retries and the `Schedule`
      otherwise. */
  function DecorrelatedJitterBackoff(minDelay: real, maxDelay: real, retryCount: int, fastFirst: bool, draws: DrawStream)
    : (r: Result<seq<real>, BackoffError>)
    ensures r.Failure? <==> minDelay < 0.0 || maxDelay < minDelay || retryCount < 0
    ensures minDelay < 0.0 ==> r == Failure(ArgumentOutOfRange("minDelay"))
    ensures 0.0 <= minDelay && maxDelay < minDelay ==> r == Failure(ArgumentOutOfRange("maxDelay"))
    ensures 0.0 <= minDelay <= maxDelay && retryCount < 0 ==> r == Failure(ArgumentOutOfRange("retryCount"))
    ensures r.Success? ==> |r.value| == retryCount
    ensures r.Success? && fastFirst && retryCount > 0 ==> r.value[0] == 0.0
    ensures r.Success? ==> forall k :: (if fastFirst then 1 else 0) <= k < |r.value| ==> minDelay <= r.value[k] <= maxDelay
  {
    if minDelay < 0.0 then Failure(ArgumentOutOfRange("minDelay"))
    else if maxDelay < minDelay then Failure(ArgumentOutOfRange("maxDelay"))
    else if retryCount < 0 then Failure(ArgumentOutOfRange("retryCount"))
    else if retryCount == 0 then Success([])
    else Success(Schedule(minDelay, maxDelay, retryCount, fastFirst, draws))
  }

  /** Two generators that agree on the draws from `lo` up to `hi`. */
  ghost predicate AgreeOn(d1: DrawStream, d2: DrawStream, lo: nat, hi: nat) {
    forall k :: lo <= k < hi ==> d1(k) == d2(k)
  }

  /** The delays depend only on the draws they use: a seeded generator that repeats the same
      `count` values repeats the same delays. */
  lemma {:induction false} JitterDeterministic(min: real, max: real, ms: real, count: nat, d1: DrawStream, d2: DrawStream, next: nat)
    requires 0.0 <= min <= ms && min <= max
    requires AgreeOn(d1, d2, next, next + count)
    ensures Jitter(min, max, ms, count, d1, next) == Jitter(min, max, ms, count, d2, next)
    decreases count
  {
    if count > 0 {
      var s := Uniform(min, Ceiling(max, ms), d1, next);
      assert s == Uniform(min, Ceiling(max, ms), d2, next);
      JitterDeterministic(min, max, s.value, count - 1, d1, d2, s.next);
    }
  }

  /** A zero minimum delay makes every jittered delay zero without touching the generator,
      since the ceiling `3 * 0` collapses onto the minimum. */
  lemma {:induction false} JitterZeroMin(max: real, ms: real, count: nat, draws: DrawStream, next: nat)
    requires 0.0 == ms <= max
    ensures Jitter(0.0, max, ms, count, draws, next) == Delays(seq(count, k => 0.0), next)
    decreases count
  {
    if count > 0 {
      JitterZeroMin(max, 0.0, count - 1, draws, next);
      assert [0.0] + seq(count - 1, k => 0.0) == seq(count, k => 0.0);
    }
  }

  /** Equal bounds make every jittered delay the minimum, again without drawing. */
  lemma {:induction false} JitterEqualBounds(min: real, count: nat, draws: DrawStream, next: nat)
    requires 0.0 <= min
    ensures Jitter(min, min, min, count, draws, next) == Delays(seq(count, k => min), next)
    decreases count
  {
    if count > 0 {
      JitterEqualBounds(min, count - 1, draws, next);
      assert [min] + seq(count - 1, k => min) == seq(count, k => min);
    }
  }

  /** `x` tripled `n` times, that is `x * 3^n`. */
  function Tripled(x: real, n: nat): real
    decreases n
  {
    if n == 0 then x else Tripled(3.0 * x, n - 1)
  }

  /** Tripling keeps an order. */
  lemma {:induction false} TripledMono(x: real, y: real, n: nat)
    requires x <= y
    ensures Tripled(x, n) <= Tripled(y, n)
    decreases n
  {
    if n > 0 {
      TripledMono(3.0 * x, 3.0 * y, n - 1);
    }
  }

  /** The `k`-th jittered delay is at most `3^(k+1)` times the delay the sequence starts
      from: the delays grow at most exponentially, with base three. */
  lemma {:induction false} JitterGrowth(min: real, max: real, ms: real, count: nat, draws: DrawStream, next: nat, k: nat)
    requires 0.0 <= min <= ms && min <= max
    requires k < count
    ensures Jitter(min, max, ms, count, draws, next).values[k] <= Tripled(ms, k + 1)
    decreases k
  {
    var s := Uniform(min, Ceiling(max, ms), draws, next);
    JitterStep(min, max, ms, count, draws, next);
    if k > 0 {
      var rest := Jitter(min, max, s.value, count - 1, draws, s.next).values;
      assert Jitter(min, max, ms, count, draws, next).values[k] == rest[k - 1];
      JitterGrowth(min, max, s.value, count - 1, draws, s.next, k - 1);
      TripledMono(s.value, 3.0 * ms, k);
    }
  }

  /** The webhook retry policy: from 5 s to 30 s over 4 retries, the first immediate. It is
      accepted for every generator and yields exactly 4 delays, the first zero and the rest
      between 5 s and 30 s. */
  lemma WebhookBackoff(draws: DrawStream)
    ensures DecorrelatedJitterBackoff(5000.0, 30000.0, 4, true, draws).Success?
    ensures var d := DecorrelatedJitterBackoff(5000.0, 30000.0, 4, true, draws).value;
      |d| == 4 && d[0] == 0.0 && forall k :: 1 <= k < 4 ==> 5000.0 <= d[k] <= 30000.0
  {
  }
}

=== FILE: enumerable_extensions.dfy ===
/** `EnumerableExtensions`: emptiness tests, key-based de-duplication and chunking of
    sequences. A `null` enumerable is `None`. */
module EnumerableExtensions {
  import opened Wrappers

  /** `Any()`: enumeration yields a first element. */
  predicate Any<T(==)>(xs: seq<T>) {
    exists x :: x in xs
  }

  /** `None()`: the negation of `Any()`. */
  predicate None<T(==)>(xs: seq<T>) {
    !Any(xs)
  }

  /** `None` holds exactly for the empty sequence. */
  lemma NoneIffEmpty<T>(xs: seq<T>)
    ensures None(xs) <==> xs == []
  {
    if xs != [] {
      assert xs[0] in xs;
    }
  }

  /** `NullOrNone()`: `null`, or no element; `||` stops at `null` before enumerating. */
  predicate NullOrNone<T(==)>(xs: Option<seq<T>>) {
    xs.None? || None(xs.value)
  }

  /** For a non-null enumerable `NullOrNone` is `None`; `null` counts as empty. */
  lemma NullOrNoneCases<T>(xs: Option<seq<T>>)
    ensures NullOrNone(xs) <==> xs.None? || xs.value == []
    ensures xs.Some? ==> (NullOrNone(xs) <==> None(xs.value))
  {
    if xs.Some? {
      NoneIffEmpty(xs.value);
    }
  }

  // ---------------------------------------------------------------------------------------
  // DistinctBy

  /** Some element before index `n` has the key `k`. */
  predicate KeySeen<T, K(==)>(xs: seq<T>, key: T -> K, n: int, k: K)
    requires 0 <= n <= |xs|
  {
    exists j :: 0 <= j < n && key(xs[j]) == k
  }

  /** Element `i` is the first of `xs` with its key. */
  predicate IsFirstWithKey<T, K(==)>(xs: seq<T>, key: T -> K, i: int)
    requires 0 <= i < |xs|
  {
    !KeySeen(xs, key, i, key(xs[i]))
  }

  /** The reference for `DistinctBy`, read left to right: the elements of `xs` whose key no
      earlier element has, in their order. */
  function FirstsByKey<T, K(==)>(xs: seq<T>, key: T -> K): seq<T>
    decreases |xs|
  {
    if |xs| == 0 then []
    else
      var n := |xs| - 1;
      var init := FirstsByKey(xs[..n], key);
      if IsFirstWithKey(xs, key, n) then init + [xs[n]] else init
  }

  /** The keys of the first `n` elements. */
  function KeysOf<T, K(==)>(xs: seq<T>, key: T -> K, n: nat): set<K>
    requires n <= |xs|
  {
    set j | 0 <= j < n :: key(xs[j])
  }

  lemma KeysOfSeen<T, K>(xs: seq<T>, key: T -> K, n: nat, k: K)
    requires n <= |xs|
    ensures k in KeysOf(xs, key, n) <==> KeySeen(xs, key, n, k)
  {
    if KeySeen(xs, key, n, k) {
      var j :| 0 <= j < n && key(xs[j]) == k;
      assert key(xs[j]) in KeysOf(xs, key, n);
    }
  }

  lemma KeySeenPrefix<T, K>(xs: seq<T>, key: T -> K, m: nat, n: nat, k: K)
    requires m <= n <= |xs|
    ensures KeySeen(xs[..n], key, m, k) <==> KeySeen(xs, key, m, k)
  {
    if KeySeen(xs, key, m, k) {
      var j :| 0 <= j < m && key(xs[j]) == k;
      assert xs[..n][j] == xs[j];
    }
  }

  /** One more element: `FirstsByKey` grows by that element exactly when its key is new. */
  lemma FirstsByKeyStep<T, K>(xs: seq<T>, key: T -> K, i: nat)
    requires i < |xs|
    ensures FirstsByKey(xs[..i + 1], key)
         == FirstsByKey(xs[..i], key) + (if KeySeen(xs, key, i, key(xs[i])) then [] else [xs[i]])
  {
    var ys := xs[..i + 1];
    assert ys[..i] == xs[..i];
    assert ys[i] == xs[i];
    KeySeenPrefix(xs, key, i, i + 1, key(xs[i]));
  }

  /** `DistinctBy`: one pass with a hash set of the keys met so far; an element is yielded
      when adding its key to the set succeeds. */
  method DistinctBy<T, K(==)>(source: seq<T>, key: T -> K) returns (r: seq<T>)
    ensures r == FirstsByKey(source, key)
  {
    var keys: set<K> := {};
    r := [];
    var i := 0;
    while i < |source|
      invariant 0 <= i <= |source|
      invariant keys == KeysOf(source, key, i)
      invariant r == FirstsByKey(source[..i], key)
    {
      var k := key(source[i]);
      FirstsByKeyStep(source, key, i);
      KeysOfSeen(source, key, i, k);
      if k !in keys {
        r := r + [source[i]];
      }
      keys := keys + {k};
      assert KeysOf(source, key, i + 1) == KeysOf(source, key, i) + {k};
      i := i + 1;
    }
    assert source[..i] == source;
  }

  /** `xs` keeps the elements of `ys` in their order (each may be skipped). */
  predicate IsSubsequence<T(==)>(xs: seq<T>, ys: seq<T>)
    decreases |ys|
  {
    if |xs| == 0 then true
    else if |ys| == 0 then false
    else
      (xs[|xs| - 1] == ys[|ys| - 1] && IsSubsequence(xs[..|xs| - 1], ys[..|ys| - 1]))
      || IsSubsequence(xs, ys[..|ys| - 1])
  }

  /** The result keeps the order of the source: it is a subsequence of it. */
  lemma {:induction false} FirstsByKeySubsequence<T, K>(xs: seq<T>, key: T -> K)
    ensures IsSubsequence(FirstsByKey(xs, key), xs)
    decreases |xs|
  {
    if |xs| > 0 {
      var n := |xs| - 1;
      var r := FirstsByKey(xs, key);
      FirstsByKeySubsequence(xs[..n], key);
      if IsFirstWithKey(xs, key, n) {
        assert r[..|r| - 1] == FirstsByKey(xs[..n], key);
      }
    }
  }

  /** Every element of the result is the first of the source with its key, and every such
      first element is in the result. */
  lemma {:induction false} FirstsByKeyMembers<T, K>(xs: seq<T>, key: T -> K)
    ensures forall k :: 0 <= k < |FirstsByKey(xs, key)| ==>
      exists i :: 0 <= i < |xs| && xs[i] == FirstsByKey(xs, key)[k] && IsFirstWithKey(xs, key, i)
    ensures forall i :: 0 <= i < |xs| && IsFirstWithKey(xs, key, i) ==> xs[i] in FirstsByKey(xs, key)
    decreases |xs|
  {
    if |xs| > 0 {
      var n := |xs| - 1;
      var init := xs[..n];
      var r0 := FirstsByKey(init, key);
      var r := FirstsByKey(xs, key);
      FirstsByKeyMembers(init, key);
      forall i | 0 <= i < n
        ensures IsFirstWithKey(init, key, i) <==> IsFirstWithKey(xs, key, i)
      {
        KeySeenPrefix(xs, key, i, n, key(xs[i]));
        assert init[i] == xs[i];
      }
      forall k | 0 <= k < |r|
        ensures exists i :: 0 <= i < |xs| && xs[i] == r[k] && IsFirstWithKey(xs, key, i)
      {
        if k < |r0| {
          assert r[k] == r0[k];
          var i :| 0 <= i < |init| && init[i] == r0[k] && IsFirstWithKey(init, key, i);
          assert xs[i] == r[k] && IsFirstWithKey(xs, key, i);
        } else {
          assert r[k] == xs[n] && IsFirstWithKey(xs, key, n);
        }
      }
      forall i | 0 <= i < |xs| && IsFirstWithKey(xs, key, i) ensures xs[i] in r {
        if i < n {
          assert init[i] == xs[i] && IsFirstWithKey(init, key, i);
          assert xs[i] in r0;
        }
      }
    } else {
      assert FirstsByKey(xs, key) == [];
    }
  }

  /** No two elements of the result share a key, and the result has an element for every key
      of the source. */
  lemma {:induction false} FirstsByKeyKeys<T, K>(xs: seq<T>, key: T -> K)
    ensures var r := FirstsByKey(xs, key);
      (forall i, j :: 0 <= i < j < |r| ==> key(r[i]) != key(r[j]))
      && (forall x :: x in xs ==> exists y :: y in r && key(y) == key(x))
    decreases |xs|
  {
    if |xs| > 0 {
      var n := |xs| - 1;
      var init := xs[..n];
      var r0 := FirstsByKey(init, key);
      var r := FirstsByKey(xs, key);
      FirstsByKeyKeys(init, key);
      if IsFirstWithKey(xs, key, n) {
        forall i | 0 <= i < |r0| ensures key(r0[i]) != key(xs[n]) {
          FirstsByKeyMembers(init, key);
          var j :| 0 <= j < n && init[j] == r0[i] && IsFirstWithKey(init, key, j);
          assert key(xs[j]) == key(r0[i]);
        }
        assert r == r0 + [xs[n]];
      } else {
        assert r == r0;
        var j :| 0 <= j < n && key(xs[j]) == key(xs[n]);
        assert xs[j] in init;
      }
      forall x | x in xs ensures exists y :: y in r && key(y) == key(x) {
        if x in init {
          var y :| y in r0 && key(y) == key(x);
          assert y in r;
        } else {
          assert x == xs[n];
          if IsFirstWithKey(xs, key, n) {
            assert xs[n] in r;
          } else {
            var j :| 0 <= j < n && key(xs[j]) == key(xs[n]);
            assert xs[j] in init;
            var y :| y in r0 && key(y) == key(xs[j]);
            assert y in r;
          }
        }
      }
    }
  }

  /** LINQ `Distinct()`: the first occurrence of every element, in source order; no element
      twice, no element lost, none added. */
  function Distinct<T(==)>(xs: seq<T>): (r: seq<T>)
    ensures forall i, j :: 0 <= i < j < |r| ==> r[i] != r[j]
    ensures forall k :: 0 <= k < |r| ==> r[k] in xs
    ensures forall i :: 0 <= i < |xs| ==> xs[i] in r
    ensures IsSubsequence(r, xs)
  {
    var id := (x: T) => x;
    FirstsByKeyKeys(xs, id);
    FirstsByKeyMembers(xs, id);
    FirstsByKeySubsequence(xs, id);
    var r := FirstsByKey(xs, id);
    assert forall k :: 0 <= k < |r| ==> r[k] in xs by {
      forall k | 0 <= k < |r| ensures r[k] in xs {
        var i :| 0 <= i < |xs| && xs[i] == r[k] && IsFirstWithKey(xs, id, i);
      }
    }
    assert forall i :: 0 <= i < |xs| ==> xs[i] in r by {
      forall i | 0 <= i < |xs| ensures xs[i] in r {
        assert xs[i] in xs;
        var y :| y in r && id(y) == id(xs[i]);
      }
    }
    r
  }

  // ---------------------------------------------------------------------------------------
  // Split

  /** The error of an integer division by zero. */
  datatype ArithmeticError = DivideByZero

  /** C#'s `/` on `int`: truncates toward zero. */
  function TruncDiv(a: int, b: int): int
    requires b != 0
  {
    var q := (if a < 0 then -a else a) / (if b < 0 then -b else b);
    if (a < 0) != (b < 0) then -q else q
  }

  /** C#'s `%` on `int`: the remainder takes the sign of the dividend. */
  function TruncRem(a: int, b: int): int
    requires b != 0
  {
    var r := (if a < 0 then -a else a) % (if b < 0 then -b else b);
    if a < 0 then -r else r
  }

  /** `Enumerable.Skip`: a count of zero or less skips nothing. */
  function Skip<T>(xs: seq<T>, n: int): seq<T> {
    if n <= 0 then xs else if n >= |xs| then [] else xs[n..]
  }

  /** `Enumerable.Take`: a count of zero or less takes nothing. */
  function Take<T>(xs: seq<T>, n: int): seq<T> {
    if n <= 0 then [] else if n >= |xs| then xs else xs[..n]
  }

  /** The number of chunks `Split` makes: the truncated quotient, plus one when the
      remainder is positive. */
  function ChunkCount(n: nat, size: int): int
    requires size != 0
  {
    TruncDiv(n, size) + (if TruncRem(n, size) > 0 then 1 else 0)
  }

  lemma MulMono(a: int, b: int, d: int)
    requires 0 <= a <= b && d > 0
    ensures a * d <= b * d
  {
  }

  lemma MulSucc(q: int, d: int)
    ensures (q + 1) * d == q * d + d
  {
  }

  lemma DivZeroIff(n: nat, d: int)
    requires d > 0
    ensures n / d == 0 <==> n < d
  {
    var q := n / d;
    assert n == q * d + n % d;
    if q >= 1 {
      MulMono(1, q, d);
    }
  }

  /** A quotient `q` and remainder `r` of `n` by a positive `size` give a ceiling `c`. */
  lemma CeilingBounds(n: nat, size: int, q: nat, r: nat)
    requires size > 0 && n == q * size + r && r < size
    ensures var c := q + (if r > 0 then 1 else 0);
      (c == 0 <==> n == 0) && (c > 0 ==> (c - 1) * size < n <= c * size)
  {
    if r > 0 {
      MulSucc(q, size);
      assert (q + 1 - 1) * size == q * size;
    } else if q == 0 {
      assert n == 0 * size;
    } else {
      MulSucc(q - 1, size);
      MulMono(1, q, size);
    }
  }

  /** A positive size gives the ceiling of `n / size`: no chunk for no element, otherwise
      enough chunks to hold `n` elements with the last one starting before `n`. */
  lemma ChunkCountPositive(n: nat, size: int)
    requires size > 0
    ensures ChunkCount(n, size) >= 0
    ensures ChunkCount(n, size) == 0 <==> n == 0
    ensures ChunkCount(n, size) > 0 ==> (ChunkCount(n, size) - 1) * size < n <= ChunkCount(n, size) * size
  {
    var q, r := n / size, n % size;
    assert TruncDiv(n, size) == q && TruncRem(n, size) == r;
    CeilingBounds(n, size, q, r);
  }

  /** A negative size makes the quotient zero or negative: one chunk when `0 < n < -size`,
      none otherwise. */
  lemma ChunkCountNegative(n: nat, size: int)
    requires size < 0
    ensures ChunkCount(n, size) <= 1
    ensures ChunkCount(n, size) == 1 <==> 0 < n < -size
  {
    var d := -size;
    var q, r := n / d, n % d;
    assert ChunkCount(n, size) == -q + (if r > 0 then 1 else 0);
    DivZeroIff(n, d);
    if q == 0 {
      assert n == r;
    }
  }

  function Min(a: int, b: int): int {
    if a <= b then a else b
  }

  /** Concatenation of a sequence of chunks. */
  function Flatten<T>(chunks: seq<seq<T>>): seq<T> {
    if |chunks| == 0 then [] else Flatten(chunks[..|chunks| - 1]) + chunks[|chunks| - 1]
  }

  lemma FlattenSnoc<T>(chunks: seq<seq<T>>, c: seq<T>)
    ensures Flatten(chunks + [c]) == Flatten(chunks) + c
  {
    assert (chunks + [c])[..|chunks|] == chunks;
  }

  /** With a positive size, chunk `k` of those `Split` makes starts inside the source and is
      the slice from `k * size` up to `k * size + size` or the end. */
  lemma ChunkAt<T>(xs: seq<T>, size: int, k: int)
    requires size > 0 && 0 <= k < ChunkCount(|xs|, size)
    ensures k * size < |xs|
    ensures Take(Skip(xs, k * size), size) == xs[k * size..Min(k * size + size, |xs|)]
  {
    ChunkCountPositive(|xs|, size);
    MulMono(k, ChunkCount(|xs|, size) - 1, size);
  }

  /** The first `m` chunks `Skip(j * size).Take(size)`, `j < m`. */
  function Chunks<T>(xs: seq<T>, size: int, m: nat): seq<seq<T>> {
    seq(m, j requires 0 <= j < m => Take(Skip(xs, j * size), size))
  }

  /** The `m`-th chunk extends the first `m - 1` ones, starting at `(m - 1) * size`. */
  lemma ChunksSnoc<T>(xs: seq<T>, size: int, m: nat)
    requires size > 0 && 0 < m <= ChunkCount(|xs|, size)
    ensures (m - 1) * size < |xs|
    ensures Chunks(xs, size, m)
            == Chunks(xs, size, m - 1) + [xs[(m - 1) * size..Min((m - 1) * size + size, |xs|)]]
  {
    ChunkAt(xs, size, m - 1);
    var c := Chunks(xs, size, m);
    assert c[m - 1] == Take(Skip(xs, (m - 1) * size), size);
    assert c[..m - 1] == Chunks(xs, size, m - 1);
    assert c == c[..m - 1] + [c[m - 1]];
  }

  lemma SlicePrefix<T>(xs: seq<T>, a: int, b: int)
    requires 0 <= a <= b <= |xs|
    ensures xs[..a] + xs[a..b] == xs[..b]
  {
  }

  /** With a positive size, the first `m` chunks cover the source up to `m * size` or its
      end. */
  lemma {:induction false} FlattenChunks<T>(xs: seq<T>, size: int, m: nat)
    requires size > 0 && m <= ChunkCount(|xs|, size)
    ensures Flatten(Chunks(xs, size, m)) == xs[..Min(m * size, |xs|)]
  {
    if m > 0 {
      var start := (m - 1) * size;
      var end := Min(start + size, |xs|);
      ChunksSnoc(xs, size, m);
      FlattenSnoc(Chunks(xs, size, m - 1), xs[start..end]);
      FlattenChunks(xs, size, m - 1);
      assert Min(start, |xs|) == start;
      SlicePrefix(xs, start, end);
      MulSucc(m - 1, size);
    }
  }

  /** With a positive size, every chunk but the last holds `size` elements, and the last holds
      between one and `size`. */
  lemma ChunkSizes<T>(xs: seq<T>, size: int, j: nat)
    requires size > 0 && j < ChunkCount(|xs|, size)
    ensures j < ChunkCount(|xs|, size) - 1 ==> |Take(Skip(xs, j * size), size)| == size
    ensures 1 <= |Take(Skip(xs, j * size), size)| <= size
  {
    ChunkAt(xs, size, j);
    if j < ChunkCount(|xs|, size) - 1 {
      ChunkAt(xs, size, j + 1);
      MulSucc(j, size);
    }
  }

  /** The loop of `Split`: chunk after chunk, `count` of them. */
  method CollectChunks<T>(xs: seq<T>, size: int, count: int) returns (chunks: seq<seq<T>>)
    ensures chunks == Chunks(xs, size, if count < 0 then 0 else count)
  {
    chunks := [];
    var k := 0;
    while k < count
      invariant 0 <= k && (k <= count || k == 0)
      invariant chunks == Chunks(xs, size, k)
    {
      chunks := chunks + [Take(Skip(xs, k * size), size)];
      k := k + 1;
    }
  }

  /** `Split(size)`: `ToList()`, then `count / size` chunks, one more when `count % size > 0`,
      chunk `k` being `Skip(k * size).Take(size)`. A zero size divides by zero. With a positive
      size the chunks put back together give the source, there are as many as it takes to
      hold it (none for an empty source), all of them hold `size` elements except the last,
      which holds between one and `size`. With a negative size the quotient is zero or
      negative, and the only chunk ever made is an empty one. */
  method Split<T>(xs: seq<T>, size: int) returns (r: Result<seq<seq<T>>, ArithmeticError>)
    ensures r.Failure? <==> size == 0
    ensures size > 0 ==> r.Success? && Flatten(r.value) == xs
    ensures size > 0 ==> r.Success? && (r.value == [] <==> xs == [])
    ensures size > 0 ==> r.Success? && (|r.value| > 0 ==> (|r.value| - 1) * size < |xs| <= |r.value| * size)
    ensures size > 0 ==> r.Success? && forall k :: 0 <= k < |r.value| - 1 ==> |r.value[k]| == size
    ensures size > 0 ==> r.Success? && forall k :: 0 <= k < |r.value| ==> 1 <= |r.value[k]| <= size
    ensures size < 0 ==> r == Success(if 0 < |xs| < -size then [[]] else [])
  {
    if size == 0 {
      return Failure(DivideByZero);
    }
    var count := ChunkCount(|xs|, size);
    var chunks := CollectChunks(xs, size, count);
    if size > 0 {
      ChunkCountPositive(|xs|, size);
      FlattenChunks(xs, size, count);
      assert xs[..Min(count * size, |xs|)] == xs;
      forall j | 0 <= j < count
        ensures j < count - 1 ==> |chunks[j]| == size
        ensures 1 <= |chunks[j]| <= size
      {
        ChunkSizes(xs, size, j);
      }
    } else {
      ChunkCountNegative(|xs|, size);
      if 0 < |xs| < -size {
        assert chunks == [Take(Skip(xs, 0), size)];
      }
    }
    r := Success(chunks);
  }
}

=== FILE: program.dfy ===
/** What the scanner sends to Azure Event Grid (`Program`): one upsert request per
    subscription declaration, dispatched by destination kind, retried for webhooks only, and
    combined in declaration order. The management client is a parameter: given a request and
    the number of the attempt, it returns the stored subscription or throws. The upserts of
    different declarations run concurrently and independently, so the `i`-th declaration is
    answered by its own client `clients(i)`. */
module Program {
  import opened Wrappers
  import opened Text
  import opened Annotations
  import opened ResourceNameResolver
  import opened ResourceMatcher
  import opened BackoffStrategy
  import opened RetryPolicy
  import AssemblyScanner

  /** Where Event Grid delivers events: a webhook URL or an Azure Function. */
  datatype Destination = WebHook(endpointUrl: string) | AzureFunction(resourceId: string)

  /** `EventSubscriptionFilter`: the subject prefix and the event types to match. */
  datatype EventSubscriptionFilter = EventSubscriptionFilter(subjectBeginsWith: Option<string>, includedEventTypes: seq<string>)

  /** The body of the upsert; `labels` is unset (null) unless given. */
  datatype EventSubscription = EventSubscription(destination: Destination, filter: EventSubscriptionFilter, labels: Option<seq<string>>)

  /** The arguments of `EventSubscriptions.CreateOrUpdateAsync(scope, name, body)`. */
  datatype UpsertRequest = UpsertRequest(scope: string, name: string, body: EventSubscription)

  /** The resource group every resource is looked up in. */
  const ResourceGroupTemplate: string := "feedme-{environment}"

  /** The labels put on function-app subscriptions. */
  const AutogeneratedLabels: seq<string> := ["autogenerated"]

  /** Attempt `k` of the upsert of a request: the stored subscription, or an exception. */
  type Client<R> = (UpsertRequest, nat) -> Attempt<R>

  /** The event source of a declaration: the resource named by its resolved template, in the
      resolved resource group of the given Azure subscription. */
  function SourceId(spec: SubscriptionAttribute, subscriptionId: string, env: string): (id: string)
    ensures id == GetResourceId(spec.resourceType, Resolve(spec.resourceName, env), "feedme-" + env, subscriptionId)
  {
    ResolveResourceGroup(env);
    GetResourceId(spec.resourceType, Resolve(spec.resourceName, env), Resolve(ResourceGroupTemplate, env), subscriptionId)
  }

  /** The filter of a declaration: subject and event types passed through unresolved. */
  function FilterOf(spec: SubscriptionAttribute): EventSubscriptionFilter {
    EventSubscriptionFilter(spec.subject, spec.eventTypes)
  }

  /** The request of `CreateWebhookSubscription`: delivery to the endpoint as declared, no
      labels. */
  function WebhookRequest(spec: SubscriptionAttribute, subscriptionId: string, env: string): (r: UpsertRequest)
    requires spec.WebhookSubscription?
    ensures r.scope == GetResourceId(spec.resourceType, Resolve(spec.resourceName, env), "feedme-" + env, subscriptionId)
    ensures r.name == spec.name
    ensures r.body.destination == WebHook(spec.endpoint)
    ensures r.body.filter.subjectBeginsWith == spec.subject && r.body.filter.includedEventTypes == spec.eventTypes
    ensures r.body.labels.None?
  {
    UpsertRequest(SourceId(spec, subscriptionId, env), spec.name,
      EventSubscription(WebHook(spec.endpoint), FilterOf(spec), None))
  }

  /** The request of `CreateFunctionAppSubscription`: delivery to the function named by the
      resolved app and function names in the same resource group, labelled `autogenerated`. */
  function FunctionAppRequest(spec: SubscriptionAttribute, subscriptionId: string, env: string): (r: UpsertRequest)
    requires spec.FunctionAppSubscription?
    ensures r.scope == GetResourceId(spec.resourceType, Resolve(spec.resourceName, env), "feedme-" + env, subscriptionId)
    ensures r.name == spec.name
    ensures r.body.destination == AzureFunction(GetFunctionAppId(subscriptionId, "feedme-" + env,
      Resolve(spec.functionAppName, env), Resolve(spec.functionName, env)))
    ensures r.body.filter.subjectBeginsWith == spec.subject && r.body.filter.includedEventTypes == spec.eventTypes
    ensures r.body.labels == Some(["autogenerated"])
  {
    ResolveResourceGroup(env);
    var functionId := GetFunctionAppId(subscriptionId, Resolve(ResourceGroupTemplate, env),
      Resolve(spec.functionAppName, env), Resolve(spec.functionName, env));
    UpsertRequest(SourceId(spec, subscriptionId, env), spec.name,
      EventSubscription(AzureFunction(functionId), FilterOf(spec), Some(AutogeneratedLabels)))
  }

  /** The request for a declaration of either kind. */
  function RequestFor(spec: SubscriptionAttribute, subscriptionId: string, env: string): UpsertRequest {
    match spec
    case FunctionAppSubscription(_, _, _, _, _, _, _) => FunctionAppRequest(spec, subscriptionId, env)
    case WebhookSubscription(_, _, _, _, _, _) => WebhookRequest(spec, subscriptionId, env)
  }

  /** Only function-app subscriptions carry labels; the destination kind follows the
      declaration kind. */
  lemma LabelsOnlyOnFunctionApps(spec: SubscriptionAttribute, subscriptionId: string, env: string)
    ensures RequestFor(spec, subscriptionId, env).body.labels.Some? <==> spec.FunctionAppSubscription?
    ensures RequestFor(spec, subscriptionId, env).body.destination.WebHook? <==> spec.WebhookSubscription?
  {
  }

  /** Reading the scope of any request back gives the declared resource type, the resolved
      resource name, the resource group `feedme-<env>` and the Azure subscription, as long as
      the name template, the environment and the subscription hold no `/`. */
  lemma RequestScopeRoundTrip(spec: SubscriptionAttribute, subscriptionId: string, env: string)
    requires NoSlash(spec.resourceName) && NoSlash(env) && NoSlash(subscriptionId)
    ensures ParseResourceId(RequestFor(spec, subscriptionId, env).scope)
      == Some(ResourceRef(spec.resourceType, Resolve(spec.resourceName, env), "feedme-" + env, subscriptionId))
  {
    ResolveKeepsOut(spec.resourceName, env, '/');
    assert NoSlash("feedme-" + env);
    ResourceIdRoundTrip(spec.resourceType, Resolve(spec.resourceName, env), "feedme-" + env, subscriptionId);
  }

  /** Reading the destination of a function-app request back gives the Azure subscription,
      the resource group `feedme-<env>` and the resolved app and function names, as long as
      the subscription, the environment and the two name templates hold no `/`. */
  lemma FunctionDestinationRoundTrip(spec: SubscriptionAttribute, subscriptionId: string, env: string)
    requires spec.FunctionAppSubscription?
    requires NoSlash(subscriptionId) && NoSlash(env)
    requires NoSlash(spec.functionAppName) && NoSlash(spec.functionName)
    ensures ParseFunctionAppId(RequestFor(spec, subscriptionId, env).body.destination.resourceId)
      == Some(FunctionRef(subscriptionId, "feedme-" + env, Resolve(spec.functionAppName, env), Resolve(spec.functionName, env)))
  {
    ResolveKeepsOut(spec.functionAppName, env, '/');
    ResolveKeepsOut(spec.functionName, env, '/');
    assert NoSlash("feedme-" + env);
    FunctionAppIdRoundTrip(subscriptionId, "feedme-" + env, Resolve(spec.functionAppName, env), Resolve(spec.functionName, env));
  }

  /** A request sent and how its upsert went. */
  datatype Dispatch<+R> = Dispatch(request: UpsertRequest, execution: Execution<R>)

  /** `d` is what `client` made of `d.request`: every run before the last threw, and the
      outcome is the last run's answer. */
  ghost predicate AnsweredBy<R>(d: Dispatch<R>, client: Client<R>) {
    && d.execution.attempts >= 1
    && (forall k :: 0 <= k < d.execution.attempts - 1 ==> client(d.request, k).Threw?)
    && d.execution.outcome == client(d.request, d.execution.attempts - 1)
  }

  /** The webhook retry plan: `DecorrelatedJitterBackoff(5 s, 30 s, 4, fastFirst: true)`. */
  function WebhookPlan(draws: DrawStream): (plan: seq<real>)
    ensures |plan| == 4 && plan[0] == 0.0
    ensures forall k :: 1 <= k < 4 ==> 5000.0 <= plan[k] <= 30000.0
  {
    WebhookBackoff(draws);
    DecorrelatedJitterBackoff(5000.0, 30000.0, 4, true, draws).value
  }

  /** One request sent under a wait-and-retry policy with the given plan. */
  function SendWithRetry<R>(client: Client<R>, request: UpsertRequest, plan: seq<real>): (d: Dispatch<R>)
    ensures d.request == request
    ensures 1 <= d.execution.attempts <= |plan| + 1
    ensures d.execution.waits == plan[..d.execution.attempts - 1]
    ensures forall k :: 0 <= k < d.execution.attempts - 1 ==> client(request, k).Threw?
    ensures d.execution.outcome == client(request, d.execution.attempts - 1)
    ensures d.execution.outcome.Threw? ==> d.execution.attempts == |plan| + 1
  {
    var act := (k: nat) => client(request, k);
    var e := ExecuteWithRetry(plan, act);
    assert forall k: nat :: act(k) == client(request, k);
    Dispatch(request, e)
  }

  /** `CreateWebhookSubscription`: the upsert is retried on any exception along the webhook
      plan, so it runs at most five times, waiting the plan's delays in between, and an
      exception escapes only after the fifth run throws. */
  function CreateWebhookSubscription<R>(client: Client<R>, spec: SubscriptionAttribute, subscriptionId: string, env: string, draws: DrawStream)
    : (d: Dispatch<R>)
    requires spec.WebhookSubscription?
    ensures d.request == WebhookRequest(spec, subscriptionId, env)
    ensures 1 <= d.execution.attempts <= 5
    ensures d.execution.waits == WebhookPlan(draws)[..d.execution.attempts - 1]
    ensures forall k :: 0 <= k < d.execution.attempts - 1 ==> client(d.request, k).Threw?
    ensures d.execution.outcome == client(d.request, d.execution.attempts - 1)
    ensures d.execution.outcome.Threw? ==> d.execution.attempts == 5
  {
    SendWithRetry(client, WebhookRequest(spec, subscriptionId, env), WebhookPlan(draws))
  }

  /** `CreateFunctionAppSubscription`: a single upsert, not retried. */
  function CreateFunctionAppSubscription<R>(client: Client<R>, spec: SubscriptionAttribute, subscriptionId: string, env: string)
    : (d: Dispatch<R>)
    requires spec.FunctionAppSubscription?
    ensures d.request == FunctionAppRequest(spec, subscriptionId, env)
    ensures d.execution.attempts == 1 && d.execution.waits == []
    ensures d.execution.outcome == client(d.request, 0)
  {
    var request := FunctionAppRequest(spec, subscriptionId, env);
    Dispatch(request, ExecuteOnce(k => client(request, k)))
  }

  /** The switch of `ApplySubscriptions` for one declaration. */
  function CreateSubscription<R>(client: Client<R>, spec: SubscriptionAttribute, subscriptionId: string, env: string, draws: DrawStream)
    : (d: Dispatch<R>)
    ensures d.request == RequestFor(spec, subscriptionId, env)
    ensures spec.FunctionAppSubscription? ==> d.execution.attempts == 1
    ensures spec.FunctionAppSubscription? ==> d.execution.waits == []
    ensures spec.WebhookSubscription? ==> 1 <= d.execution.attempts <= 5
    ensures spec.WebhookSubscription? ==> d.execution.waits == WebhookPlan(draws)[..d.execution.attempts - 1]
    ensures spec.WebhookSubscription? ==> (d.execution.outcome.Threw? ==> d.execution.attempts == 5)
    ensures forall k :: 0 <= k < d.execution.attempts - 1 ==> client(d.request, k).Threw?
    ensures d.execution.outcome == client(d.request, d.execution.attempts - 1)
    ensures AnsweredBy(d, client)
  {
    match spec
    case FunctionAppSubscription(_, _, _, _, _, _, _) =>
      var d := CreateFunctionAppSubscription(client, spec, subscriptionId, env);
      assert AnsweredBy(d, client);
      d
    case WebhookSubscription(_, _, _, _, _, _) =>
      var d := CreateWebhookSubscription(client, spec, subscriptionId, env, draws);
      assert AnsweredBy(d, client);
      d
  }

  /** A webhook whose endpoint keeps failing is tried five times, waiting the whole plan. */
  lemma WebhookGivesUpAfterFiveRuns<R>(client: Client<R>, spec: SubscriptionAttribute, subscriptionId: string, env: string, draws: DrawStream)
    requires spec.WebhookSubscription?
    requires forall k :: 0 <= k <= 4 ==> client(WebhookRequest(spec, subscriptionId, env), k).Threw?
    ensures var d := CreateSubscription(client, spec, subscriptionId, env, draws);
      d.execution.attempts == 5 && d.execution.waits == WebhookPlan(draws) && d.execution.outcome.Threw?
  {
    var request := WebhookRequest(spec, subscriptionId, env);
    RetryExhausts(WebhookPlan(draws), k => client(request, k));
  }

  /** `ApplySubscriptions`: every declaration is sent, in declaration order. The `i`-th
      declaration is answered by `clients(i)`, and a webhook draws its delays from `draws(i)`. */
  function ApplySubscriptions<R>(clients: nat -> Client<R>, subscriptionId: string, env: string, specs: seq<SubscriptionAttribute>, draws: nat -> DrawStream)
    : (runs: seq<Dispatch<R>>)
    ensures |runs| == |specs|
    ensures forall i :: 0 <= i < |specs| ==> runs[i].request == RequestFor(specs[i], subscriptionId, env)
    ensures forall i :: 0 <= i < |specs| ==> 1 <= runs[i].execution.attempts <= (if specs[i].WebhookSubscription? then 5 else 1)
    ensures forall i :: 0 <= i < |specs| ==> AnsweredBy(runs[i], clients(i))
    ensures forall i :: 0 <= i < |specs| && specs[i].FunctionAppSubscription? ==> runs[i].execution.waits == []
    ensures forall i :: 0 <= i < |specs| && specs[i].WebhookSubscription? ==>
              runs[i].execution.waits == WebhookPlan(draws(i))[..runs[i].execution.attempts - 1]
    ensures forall i :: 0 <= i < |specs| && specs[i].WebhookSubscription? && runs[i].execution.outcome.Threw? ==>
              runs[i].execution.attempts == 5
  {
    var runs := seq(|specs|, i requires 0 <= i < |specs| => CreateSubscription(clients(i), specs[i], subscriptionId, env, draws(i)));
    forall i | 0 <= i < |specs|
      ensures runs[i].request == RequestFor(specs[i], subscriptionId, env)
      ensures 1 <= runs[i].execution.attempts <= (if specs[i].WebhookSubscription? then 5 else 1)
      ensures AnsweredBy(runs[i], clients(i))
      ensures specs[i].FunctionAppSubscription? ==> runs[i].execution.waits == []
      ensures specs[i].WebhookSubscription? ==>
                runs[i].execution.waits == WebhookPlan(draws(i))[..runs[i].execution.attempts - 1]
      ensures specs[i].WebhookSubscription? && runs[i].execution.outcome.Threw? ==> runs[i].execution.attempts == 5
    {
      assert runs[i] == CreateSubscription(clients(i), specs[i], subscriptionId, env, draws(i));
    }
    runs
  }

  /** How the awaited task ends: it completes with a `Result`, or faults with the exception of
      an upsert. */
  datatype Outcome<+T> = Completed(result: Result<T, string>) | Faulted(error: string)

  /** `Combine`: the stored subscriptions in declaration order once every upsert returned;
      otherwise the combined `Task` faults with the exception of the first upsert (in declaration order)
      that threw. An upsert exception never becomes a `Failure` result. */
  function Combine<R>(runs: seq<Dispatch<R>>): (o: Outcome<seq<R>>)
    ensures o.Completed? ==> o.result.Success? && |o.result.value| == |runs|
    ensures o.Completed? ==> forall i :: 0 <= i < |runs| ==> runs[i].execution.outcome == Returned(o.result.value[i])
    ensures o.Faulted? ==> exists i :: 0 <= i < |runs| && runs[i].execution.outcome == Threw(o.error)
                                   && (forall j :: 0 <= j < i ==> runs[j].execution.outcome.Returned?)
  {
    if |runs| == 0 then Completed(Success([]))
    else
      match runs[0].execution.outcome
      case Threw(e) => Faulted(e)
      case Returned(v) =>
        var rest := Combine(runs[1..]);
        match rest
        case Faulted(e) =>
          assert exists i :: 0 <= i < |runs| && runs[i].execution.outcome == Threw(e)
                             && (forall j :: 0 <= j < i ==> runs[j].execution.outcome.Returned?) by {
            var i :| 0 <= i < |runs[1..]| && runs[1..][i].execution.outcome == Threw(e)
                     && (forall j :: 0 <= j < i ==> runs[1..][j].execution.outcome.Returned?);
            assert runs[i + 1] == runs[1..][i];
            forall j | 0 <= j < i + 1 ensures runs[j].execution.outcome.Returned? {
              if j > 0 { assert runs[j] == runs[1..][j - 1]; }
            }
          }
          rest
        case Completed(r) =>
          var values := [v] + r.value;
          assert forall i :: 1 <= i < |runs| ==> runs[i] == runs[1..][i - 1];
          Completed(Success(values))
  }

  /** The combined task completes exactly when every upsert returned. */
  lemma CombineCompletesIffAllReturned<R>(runs: seq<Dispatch<R>>)
    ensures Combine(runs).Completed? <==> forall i :: 0 <= i < |runs| ==> runs[i].execution.outcome.Returned?
  {
    var o := Combine(runs);
    if o.Faulted? {
      var i :| 0 <= i < |runs| && runs[i].execution.outcome == Threw(o.error);
      assert !runs[i].execution.outcome.Returned?;
    }
  }

  /** What an update does: the upserts it sent and how its task ends. */
  datatype Update<+R> = Update(runs: seq<Dispatch<R>>, outcome: Outcome<seq<R>>)

  /** The `Bind` of `UpdateSubscriptions` after the scan: a failed scan is passed on and a dry
      run returns an empty success, both without sending anything; otherwise every declaration
      is applied and the results combined. */
  function UpdateFromScan<R>(scanned: Result<seq<SubscriptionAttribute>, string>, dryRun: bool,
                             clients: nat -> Client<R>, subscriptionId: string, env: string, draws: nat -> DrawStream)
    : (u: Update<R>)
    ensures scanned.Failure? ==> u == Update([], Completed(Failure(scanned.error)))
    ensures scanned.Success? && dryRun ==> u == Update([], Completed(Success([])))
    ensures scanned.Success? && !dryRun ==>
              |u.runs| == |scanned.value|
              && (forall i :: 0 <= i < |u.runs| ==> u.runs[i].request == RequestFor(scanned.value[i], subscriptionId, env))
              && (forall i :: 0 <= i < |u.runs| ==> AnsweredBy(u.runs[i], clients(i)))
              && u.outcome == Combine(u.runs)
  {
    match scanned
    case Failure(e) => Update([], Completed(Failure(e)))
    case Success(specs) =>
      if dryRun then Update([], Completed(Success([])))
      else
        var runs := ApplySubscriptions(clients, subscriptionId, env, specs, draws);
        Update(runs, Combine(runs))
  }

  /** `UpdateSubscriptions`: scan the target assembly, then update. The scan never fails, so
      the outcome is never a `Failure` result: it is a success or an upsert exception. */
  function UpdateSubscriptions<R>(targetAssembly: string, load: string -> AssemblyScanner.Assembly, dryRun: bool,
                                  clients: nat -> Client<R>, subscriptionId: string, env: string, draws: nat -> DrawStream)
    : (u: Update<R>)
    ensures dryRun ==> u == Update([], Completed(Success([])))
    ensures u.outcome.Completed? ==> u.outcome.result.Success?
    ensures !dryRun ==>
              var found := AssemblyScanner.ScanSubscriptions(targetAssembly, load).value;
              |u.runs| == |found|
              && (forall i :: 0 <= i < |u.runs| ==> u.runs[i].request == RequestFor(found[i], subscriptionId, env))
              && (forall i :: 0 <= i < |u.runs| ==> AnsweredBy(u.runs[i], clients(i)))
              && u.outcome == Combine(u.runs)
  {
    UpdateFromScan(AssemblyScanner.ScanSubscriptions(targetAssembly, load), dryRun, clients, subscriptionId, env, draws)
  }

  /** The subscriptions a completed update returns are the ones the clients stored: the `i`-th
      value is the answer to the last run of the `i`-th request. */
  lemma CompletedUpdateReturnsStored<R>(scanned: Result<seq<SubscriptionAttribute>, string>, dryRun: bool,
                                        clients: nat -> Client<R>, subscriptionId: string, env: string, draws: nat -> DrawStream)
    requires scanned.Success? && !dryRun
    ensures var u := UpdateFromScan(scanned, dryRun, clients, subscriptionId, env, draws);
      u.outcome.Completed? ==>
        |u.outcome.result.value| == |scanned.value|
        && forall i :: 0 <= i < |scanned.value| ==>
             clients(i)(RequestFor(scanned.value[i], subscriptionId, env), u.runs[i].execution.attempts - 1)
               == Returned(u.outcome.result.value[i])
  {
  }

  /** The sample function's declaration. */
  function SampleTrigger(): SubscriptionAttribute {
    FunctionAppSubscription("TestSubscription", None, EventGridTopic, "topic-name-{environment}",
      ["TestEvent"], "EventGridTriggeredFunc", "sample-function-app-" + EnvironmentPlaceholder)
  }

  /** The sample's function app name in environment `prod`. */
  lemma SampleAppName()
    ensures Resolve("sample-function-app-" + EnvironmentPlaceholder, "prod") == "sample-function-app-" + "prod"
  {
    ResolveTrailingPlaceholder("sample-function-app-", "prod");
  }

  /** The names of the sample declaration in environment `prod`. */
  lemma SampleNames()
    ensures Resolve(SampleTrigger().resourceName, "prod") == "topic-name-prod"
    ensures Resolve(SampleTrigger().functionAppName, "prod") == "sample-function-app-" + "prod"
    ensures Resolve(SampleTrigger().functionName, "prod") == "EventGridTriggeredFunc"
  {
    var t := SampleTrigger();
    assert t.resourceName == "topic-name-{environment}";
    assert t.functionAppName == "sample-function-app-" + EnvironmentPlaceholder;
    assert t.functionName == "EventGridTriggeredFunc";
    ResolveSampleTopic();
    SampleAppName();
    SampleFunctionName();
  }

  /** The sample's function name holds no placeholder. */
  lemma SampleFunctionName()
    ensures Resolve("EventGridTriggeredFunc", "prod") == "EventGridTriggeredFunc"
  {
    NoTokenWithoutBraces("EventGridTriggeredFunc");
  }

  /** In environment `prod`, the sample subscribes function `EventGridTriggeredFunc` of app
      `sample-function-app-prod` to topic `topic-name-prod`, both in group `feedme-prod`. */
  lemma SampleTriggerRequest(subscriptionId: string)
    ensures var r := RequestFor(SampleTrigger(), subscriptionId, "prod");
      r.scope == GetResourceId(EventGridTopic, "topic-name-prod", "feedme-" + "prod", subscriptionId)
      && r.name == "TestSubscription"
      && r.body.destination == AzureFunction(GetFunctionAppId(subscriptionId, "feedme-" + "prod",
           "sample-function-app-" + "prod", "EventGridTriggeredFunc"))
      && r.body.filter == EventSubscriptionFilter(None, ["TestEvent"])
      && r.body.labels == Some(["autogenerated"])
  {
    SampleNames();
  }
}

=== FILE: resource_matcher.dfy ===
/** Azure resource identifiers: the event source (`GetResourceId`) and the function-app
    destination (`GetFunctionAppId`). Arguments are inserted verbatim, without escaping. */
module ResourceMatcher {
  import opened Wrappers
  import opened Text
  import opened Annotations

  /** `MatchResourceProvider`: the provider namespace of each resource type. */
  function MatchResourceProvider(t: EventResourceType): string {
    match t
    case StorageAccount => "Microsoft.Storage"
    case EventGridTopic => "Microsoft.EventGrid"
  }

  /** `MatchResourceType`: the resource collection of each resource type. */
  function MatchResourceType(t: EventResourceType): string {
    match t
    case StorageAccount => "StorageAccounts"
    case EventGridTopic => "topics"
  }

  function GetFunctionAppId(subscriptionId: string, resourceGroup: string, functionAppName: string, functionName: string): string {
    "/subscriptions/" + subscriptionId + "/resourceGroups/" + resourceGroup
      + "/providers/Microsoft.Web/sites/" + functionAppName + "/functions/" + functionName
  }

  /** Note the parameter order (type, name, group, subscription) differs from the order in
      which the values appear in the identifier. */
  function GetResourceId(t: EventResourceType, resourceName: string, resourceGroup: string, subscriptionId: string): string {
    "/subscriptions/" + subscriptionId + "/resourceGroups/" + resourceGroup
      + "/providers/" + MatchResourceProvider(t) + "/" + MatchResourceType(t) + "/" + resourceName
  }

  /** The inverse of the two lookup tables: the resource type a provider and collection
      belong to, if any. */
  function ResourceTypeOf(provider: string, collection: string): (t: Option<EventResourceType>)
    ensures t.Some? ==> MatchResourceProvider(t.value) == provider && MatchResourceType(t.value) == collection
    ensures forall u :: MatchResourceProvider(u) == provider && MatchResourceType(u) == collection ==> t == Some(u)
  {
    if provider == "Microsoft.Storage" && collection == "StorageAccounts" then Some(StorageAccount)
    else if provider == "Microsoft.EventGrid" && collection == "topics" then Some(EventGridTopic)
    else None
  }

  datatype ResourceRef = ResourceRef(t: EventResourceType, resourceName: string, resourceGroup: string, subscriptionId: string)
  datatype FunctionRef = FunctionRef(subscriptionId: string, resourceGroup: string, functionAppName: string, functionName: string)

  predicate NoSlash(s: string) { '/' !in s }

  /** The `/`-separated segments of an event-source identifier. */
  function ResourceSegments(t: EventResourceType, resourceName: string, resourceGroup: string, subscriptionId: string): seq<string> {
    ["", "subscriptions", subscriptionId, "resourceGroups", resourceGroup, "providers",
     MatchResourceProvider(t), MatchResourceType(t), resourceName]
  }

  /** The `/`-separated segments of a function identifier. */
  function FunctionSegments(subscriptionId: string, resourceGroup: string, functionAppName: string, functionName: string): seq<string> {
    ["", "subscriptions", subscriptionId, "resourceGroups", resourceGroup, "providers",
     "Microsoft.Web", "sites", functionAppName, "functions", functionName]
  }

  /** The segments before `providers`, joined in front of the rest. */
  lemma HeadJoin(sub: string, rg: string, tail: seq<string>)
    requires |tail| >= 1
    ensures JoinOn(["", "subscriptions", sub, "resourceGroups", rg] + tail, '/')
      == "" + "/" + ("subscriptions" + "/" + (sub + "/" + ("resourceGroups" + "/" + (rg + "/" + JoinOn(tail, '/')))))
  {
    JoinFiveCons("", "subscriptions", sub, "resourceGroups", rg, tail, '/');
  }

  /** Five pieces joined in front of the rest. */
  lemma JoinFiveCons(a0: string, a1: string, a2: string, a3: string, a4: string, tail: seq<string>, sep: char)
    requires |tail| >= 1
    ensures JoinOn([a0, a1, a2, a3, a4] + tail, sep)
      == a0 + [sep] + (a1 + [sep] + (a2 + [sep] + (a3 + [sep] + (a4 + [sep] + JoinOn(tail, sep)))))
  {
    var s4 := [a4] + tail;
    var s3 := [a3] + s4;
    var s2 := [a2] + s3;
    var s1 := [a1] + s2;
    var s0 := [a0] + s1;
    JoinOnCons(a4, tail, sep);
    JoinOnCons(a3, s4, sep);
    JoinOnCons(a2, s3, sep);
    JoinOnCons(a1, s2, sep);
    JoinOnCons(a0, s1, sep);
    assert s0 == [a0, a1, a2, a3, a4] + tail;
  }

  /** The segments from `providers` on of an event-source identifier. */
  lemma ProviderTailJoin(p: string, c: string, name: string)
    ensures JoinOn(["providers", p, c, name], '/') == "providers" + "/" + (p + "/" + (c + "/" + name))
  {
    JoinOnCons(c, [name], '/');
    JoinOnCons(p, [c, name], '/');
    assert [p] + [c, name] == [p, c, name];
    JoinOnCons("providers", [p, c, name], '/');
    assert ["providers"] + [p, c, name] == ["providers", p, c, name];
  }

  /** An event-source identifier is its segments joined by `/`. */
  lemma ResourceIdJoin(t: EventResourceType, resourceName: string, resourceGroup: string, subscriptionId: string)
    ensures JoinOn(ResourceSegments(t, resourceName, resourceGroup, subscriptionId), '/')
      == GetResourceId(t, resourceName, resourceGroup, subscriptionId)
  {
    var p, c := MatchResourceProvider(t), MatchResourceType(t);
    var tail := ["providers", p, c, resourceName];
    assert ResourceSegments(t, resourceName, resourceGroup, subscriptionId)
      == ["", "subscriptions", subscriptionId, "resourceGroups", resourceGroup] + tail;
    HeadJoin(subscriptionId, resourceGroup, tail);
    ProviderTailJoin(p, c, resourceName);
    ResourceIdShape(subscriptionId, resourceGroup, p, c, resourceName);
  }

  /** Regrouping the concatenation of an event-source identifier. */
  lemma ResourceIdShape(sub: string, rg: string, p: string, c: string, name: string)
    ensures "/subscriptions/" + sub + "/resourceGroups/" + rg + "/providers/" + p + "/" + c + "/" + name
      == "" + "/" + ("subscriptions" + "/" + (sub + "/" + ("resourceGroups" + "/" + (rg + "/"
         + ("providers" + "/" + (p + "/" + (c + "/" + name)))))))
  {
    var head := "/subscriptions/" + sub + "/resourceGroups/" + rg;
    var tail := "providers" + "/" + (p + "/" + (c + "/" + name));
    Regroup6(head, "/providers/", p, "/", c, "/", name);
    ResourceIdTail(p, c, name);
    SubscriptionPrefixShape(sub, rg, tail);
  }

  lemma Regroup6(x: string, a: string, b: string, c: string, d: string, e: string, f: string)
    ensures x + a + b + c + d + e + f == x + (a + b + c + d + e + f)
  {
    ConcatRegroup(x, a, b);
    ConcatRegroup(x, a + b, c);
    ConcatRegroup(x, a + b + c, d);
    ConcatRegroup(x, a + b + c + d, e);
    ConcatRegroup(x, a + b + c + d + e, f);
  }

  lemma ResourceIdTail(p: string, c: string, name: string)
    ensures "/providers/" + p + "/" + c + "/" + name == "/" + ("providers" + "/" + (p + "/" + (c + "/" + name)))
  {
  }

  /** The segments from `providers` on of a function identifier. */
  lemma FunctionTailJoin(app: string, fn: string)
    ensures JoinOn(["providers", "Microsoft.Web", "sites", app, "functions", fn], '/')
      == "providers" + "/" + ("Microsoft.Web" + "/" + ("sites" + "/" + (app + "/" + ("functions" + "/" + fn))))
  {
    JoinOnCons("functions", [fn], '/');
    JoinOnCons(app, ["functions", fn], '/');
    assert [app] + ["functions", fn] == [app, "functions", fn];
    JoinOnCons("sites", [app, "functions", fn], '/');
    assert ["sites"] + [app, "functions", fn] == ["sites", app, "functions", fn];
    JoinOnCons("Microsoft.Web", ["sites", app, "functions", fn], '/');
    assert ["Microsoft.Web"] + ["sites", app, "functions", fn] == ["Microsoft.Web", "sites", app, "functions", fn];
    JoinOnCons("providers", ["Microsoft.Web", "sites", app, "functions", fn], '/');
    assert ["providers"] + ["Microsoft.Web", "sites", app, "functions", fn]
      == ["providers", "Microsoft.Web", "sites", app, "functions", fn];
  }

  /** A function identifier is its segments joined by `/`. */
  lemma FunctionAppIdJoin(subscriptionId: string, resourceGroup: string, functionAppName: string, functionName: string)
    ensures JoinOn(FunctionSegments(subscriptionId, resourceGroup, functionAppName, functionName), '/')
      == GetFunctionAppId(subscriptionId, resourceGroup, functionAppName, functionName)
  {
    var tail := ["providers", "Microsoft.Web", "sites", functionAppName, "functions", functionName];
    assert FunctionSegments(subscriptionId, resourceGroup, functionAppName, functionName)
      == ["", "subscriptions", subscriptionId, "resourceGroups", resourceGroup] + tail;
    HeadJoin(subscriptionId, resourceGroup, tail);
    FunctionTailJoin(functionAppName, functionName);
    FunctionAppIdShape(subscriptionId, resourceGroup, functionAppName, functionName);
  }

  /** Regrouping the concatenation of a function identifier. */
  lemma FunctionAppIdShape(sub: string, rg: string, app: string, fn: string)
    ensures "/subscriptions/" + sub + "/resourceGroups/" + rg + "/providers/Microsoft.Web/sites/" + app + "/functions/" + fn
      == "" + "/" + ("subscriptions" + "/" + (sub + "/" + ("resourceGroups" + "/" + (rg + "/"
         + ("providers" + "/" + ("Microsoft.Web" + "/" + ("sites" + "/" + (app + "/" + ("functions" + "/" + fn)))))))))
  {
    var tail := "providers" + "/" + ("Microsoft.Web" + "/" + ("sites" + "/" + (app + "/" + ("functions" + "/" + fn))));
    FunctionAppIdTail(app, fn);
    ConcatRegroup("/subscriptions/" + sub + "/resourceGroups/" + rg, "/providers/Microsoft.Web/sites/", app + "/functions/" + fn);
    assert "/subscriptions/" + sub + "/resourceGroups/" + rg + "/providers/Microsoft.Web/sites/" + app + "/functions/" + fn
      == "/subscriptions/" + sub + "/resourceGroups/" + rg + ("/" + tail);
    SubscriptionPrefixShape(sub, rg, tail);
  }

  lemma ConcatRegroup(a: string, b: string, c: string)
    ensures a + b + c == a + (b + c)
  {
  }

  lemma FunctionAppIdTail(app: string, fn: string)
    ensures "/providers/Microsoft.Web/sites/" + (app + "/functions/" + fn)
      == "/" + ("providers" + "/" + ("Microsoft.Web" + "/" + ("sites" + "/" + (app + "/" + ("functions" + "/" + fn)))))
  {
    FunctionAppIdLiterals();
    TailRegroup("/providers/Microsoft.Web/sites/", "/functions/", "providers", "Microsoft.Web", "sites", "functions", app, fn);
  }

  lemma FunctionAppIdLiterals()
    ensures "/providers/Microsoft.Web/sites/" == "/" + "providers" + "/" + "Microsoft.Web" + "/" + "sites" + "/"
    ensures "/functions/" == "/" + "functions" + "/"
  {
  }

  lemma TailRegroup(head: string, mid: string, q: string, w: string, x: string, f: string, app: string, fn: string)
    requires head == "/" + q + "/" + w + "/" + x + "/" && mid == "/" + f + "/"
    ensures head + (app + mid + fn) == "/" + (q + "/" + (w + "/" + (x + "/" + (app + "/" + (f + "/" + fn)))))
  {
  }

  lemma SubscriptionPrefixShape(sub: string, rg: string, tail: string)
    ensures "/subscriptions/" + sub + "/resourceGroups/" + rg + ("/" + tail)
      == "" + "/" + ("subscriptions" + "/" + (sub + "/" + ("resourceGroups" + "/" + (rg + "/" + tail))))
  {
  }

  /** Reads the arguments back from the `/`-separated segments of an event-source identifier.
      Whatever it accepts is exactly the identifier `GetResourceId` builds from what it returns. */
  function ParseResourceId(id: string): (r: Option<ResourceRef>)
    ensures r.Some? ==> GetResourceId(r.value.t, r.value.resourceName, r.value.resourceGroup, r.value.subscriptionId) == id
    ensures r.Some? ==> NoSlash(r.value.resourceName) && NoSlash(r.value.resourceGroup) && NoSlash(r.value.subscriptionId)
  {
    var parts := SplitOn(id, '/');
    if |parts| == 9 && parts[0] == "" && parts[1] == "subscriptions" && parts[3] == "resourceGroups"
       && parts[5] == "providers" && ResourceTypeOf(parts[6], parts[7]).Some?
    then
      var t := ResourceTypeOf(parts[6], parts[7]).value;
      assert parts == ResourceSegments(t, parts[8], parts[4], parts[2]);
      ResourceIdJoin(t, parts[8], parts[4], parts[2]);
      Some(ResourceRef(t, parts[8], parts[4], parts[2]))
    else None
  }

  /** Reads the arguments back from the `/`-separated segments of a function identifier. */
  function ParseFunctionAppId(id: string): (r: Option<FunctionRef>)
    ensures r.Some? ==> GetFunctionAppId(r.value.subscriptionId, r.value.resourceGroup, r.value.functionAppName, r.value.functionName) == id
    ensures r.Some? ==> NoSlash(r.value.subscriptionId) && NoSlash(r.value.resourceGroup) && NoSlash(r.value.functionAppName) && NoSlash(r.value.functionName)
  {
    var parts := SplitOn(id, '/');
    if |parts| == 11 && parts[0] == "" && parts[1] == "subscriptions" && parts[3] == "resourceGroups"
       && parts[5] == "providers" && parts[6] == "Microsoft.Web" && parts[7] == "sites" && parts[9] == "functions"
    then
      assert parts == FunctionSegments(parts[2], parts[4], parts[8], parts[10]);
      FunctionAppIdJoin(parts[2], parts[4], parts[8], parts[10]);
      Some(FunctionRef(parts[2], parts[4], parts[8], parts[10]))
    else None
  }

  /** Round trip: the arguments of `GetResourceId` are read back from the identifier, for
      both resource types, whenever none of them holds `/`. */
  lemma ResourceIdRoundTrip(t: EventResourceType, resourceName: string, resourceGroup: string, subscriptionId: string)
    requires NoSlash(resourceName) && NoSlash(resourceGroup) && NoSlash(subscriptionId)
    ensures ParseResourceId(GetResourceId(t, resourceName, resourceGroup, subscriptionId))
      == Some(ResourceRef(t, resourceName, resourceGroup, subscriptionId))
  {
    var segs := ResourceSegments(t, resourceName, resourceGroup, subscriptionId);
    ResourceIdJoin(t, resourceName, resourceGroup, subscriptionId);
    assert NoSlash(MatchResourceProvider(t)) && NoSlash(MatchResourceType(t));
    SplitJoin(segs, '/');
  }

  /** Round trip for function identifiers. */
  lemma FunctionAppIdRoundTrip(subscriptionId: string, resourceGroup: string, functionAppName: string, functionName: string)
    requires NoSlash(subscriptionId) && NoSlash(resourceGroup) && NoSlash(functionAppName) && NoSlash(functionName)
    ensures ParseFunctionAppId(GetFunctionAppId(subscriptionId, resourceGroup, functionAppName, functionName))
      == Some(FunctionRef(subscriptionId, resourceGroup, functionAppName, functionName))
  {
    var segs := FunctionSegments(subscriptionId, resourceGroup, functionAppName, functionName);
    FunctionAppIdJoin(subscriptionId, resourceGroup, functionAppName, functionName);
    SplitJoin(segs, '/');
  }

  /** The lookup tables are injective: distinct resource types never share provider and
      collection, so an identifier determines its resource type. */
  lemma LookupDeterminesType(t: EventResourceType, u: EventResourceType)
    ensures MatchResourceProvider(t) == MatchResourceProvider(u) && MatchResourceType(t) == MatchResourceType(u) ==> t == u
    ensures ResourceTypeOf(MatchResourceProvider(t), MatchResourceType(t)) == Some(t)
  {
  }
}

=== FILE: resource_name_resolver.dfy ===
/** Placeholder resolution in resource-name templates. The template is searched for the
    leftmost match of the regular expression `{[a-zA-Z_-]*}`; when the key between the braces
    is exactly `environment`, every occurrence of `{environment}` is replaced by the
    environment name, otherwise the template is returned as it is. */
module ResourceNameResolver {
  import opened Wrappers
  import opened Text

  const EnvironmentToken: string := "environment"
  const EnvironmentPlaceholder: string := "{environment}"

  /** The character class `[a-zA-Z_-]`; digits are not key characters. */
  predicate IsKeyChar(c: char) {
    ('a' <= c <= 'z') || ('A' <= c <= 'Z') || c == '_' || c == '-'
  }

  /** The regular expression `{[a-zA-Z_-]*}` matches at index `p` of `s` with `key` between
      the braces. */
  predicate IsTokenAt(s: string, p: int, key: string) {
    && 0 <= p && p + |key| + 2 <= |s|
    && s[p] == '{'
    && s[p + 1..p + 1 + |key|] == key
    && (forall i :: 0 <= i < |key| ==> IsKeyChar(key[i]))
    && s[p + 1 + |key|] == '}'
  }

  /** The match at `p` is the one `Regex.Match` returns: no match starts further left. */
  ghost predicate IsLeftmostToken(s: string, p: int, key: string) {
    IsTokenAt(s, p, key) && forall q, k :: 0 <= q < p ==> !IsTokenAt(s, q, k)
  }

  datatype Token = Token(pos: nat, key: string)

  /** The end of the run of key characters starting at `i`. */
  function KeyEnd(s: string, i: nat): (j: nat)
    requires i <= |s|
    ensures i <= j <= |s|
    ensures forall k :: i <= k < j ==> IsKeyChar(s[k])
    ensures j == |s| || !IsKeyChar(s[j])
    decreases |s| - i
  {
    if i < |s| && IsKeyChar(s[i]) then KeyEnd(s, i + 1) else i
  }

  /** A token at `p` ends where the run of key characters after its `{` ends, so the key of a
      token at a given position is unique (the `*` cannot stop early: `}` is no key character). */
  lemma TokenKeyEnd(s: string, p: int, key: string)
    ensures IsTokenAt(s, p, key) ==> KeyEnd(s, p + 1) == p + 1 + |key| && key == s[p + 1..KeyEnd(s, p + 1)]
  {
    if IsTokenAt(s, p, key) {
      var j := KeyEnd(s, p + 1);
      var e := p + 1 + |key|;
      assert forall i :: p + 1 <= i < e ==> s[i] == key[i - p - 1];
      assert !IsKeyChar(s[e]);
      assert j <= e;
      assert j >= e;
    }
  }

  /** The leftmost token at or after `from`. */
  function FirstTokenFrom(s: string, from: nat): (t: Option<Token>)
    requires from <= |s|
    ensures t.Some? ==> from <= t.value.pos && IsTokenAt(s, t.value.pos, t.value.key)
    ensures t.Some? ==> forall q, k :: from <= q < t.value.pos ==> !IsTokenAt(s, q, k)
    ensures t.None? ==> forall q, k :: from <= q ==> !IsTokenAt(s, q, k)
    decreases |s| - from
  {
    if from == |s| then None
    else
      var e := KeyEnd(s, from + 1);
      if s[from] == '{' && e < |s| && s[e] == '}' then
        Some(Token(from, s[from + 1..e]))
      else
        assert forall k :: !IsTokenAt(s, from, k) by {
          forall k ensures !IsTokenAt(s, from, k) {
            TokenKeyEnd(s, from, k);
          }
        }
        FirstTokenFrom(s, from + 1)
  }

  /** `Regex.Match` for `{[a-zA-Z_-]*}`: the leftmost token, if any. */
  function FirstToken(s: string): (t: Option<Token>)
    ensures t.None? <==> forall q, k :: !IsTokenAt(s, q, k)
    ensures t.Some? ==> IsLeftmostToken(s, t.value.pos, t.value.key)
  {
    FirstTokenFrom(s, 0)
  }

  /** The leftmost token is the one `FirstToken` finds. */
  lemma LeftmostIsFirst(s: string, p: int, key: string)
    ensures IsLeftmostToken(s, p, key) ==> FirstToken(s) == Some(Token(p, key))
  {
    TokenKeyEnd(s, p, key);
    var t := FirstToken(s);
    if t.Some? {
      TokenKeyEnd(s, t.value.pos, t.value.key);
    }
  }

  /** Every leftmost token has the key of the token `FirstToken` finds. */
  lemma LeftmostKey(s: string, key: string)
    requires FirstToken(s).Some? && FirstToken(s).value.key == key
    ensures forall p, k :: IsLeftmostToken(s, p, k) ==> k == key
  {
    forall p, k ensures IsLeftmostToken(s, p, k) ==> k == key {
      LeftmostIsFirst(s, p, k);
    }
  }

  /** `ResourceNameResolver.Resolve`. Without a match the group values are empty, and the empty
      key is not `environment`. */
  function Resolve(template: string, env: string): (r: string)
    ensures (forall p, k :: !IsTokenAt(template, p, k)) ==> r == template
    ensures forall p, k :: IsLeftmostToken(template, p, k) ==>
      r == (if k == EnvironmentToken then ReplaceAll(template, EnvironmentPlaceholder, env) else template)
  {
    var m := FirstToken(template);
    if m.None? then template
    else
      var key := m.value.key;
      LeftmostKey(template, key);
      if key == EnvironmentToken then
        PlaceholderFacts();
        ReplaceAll(template, "{" + key + "}", env)
      else template
  }

  /** Resolution introduces no character that neither the template nor the environment name
      holds: a template and an environment without `/` resolve to a name without `/`. */
  lemma ResolveKeepsOut(template: string, env: string, c: char)
    requires c !in template && c !in env
    ensures c !in Resolve(template, env)
  {
    var m := FirstToken(template);
    if m.Some? && m.value.key == EnvironmentToken {
      PlaceholderFacts();
      ReplaceAllKeepsOut(template, EnvironmentPlaceholder, env, c);
    }
  }

  /** A template without `{` or without `}` holds no token. */
  lemma NoTokenWithoutBraces(s: string)
    requires '{' !in s || '}' !in s
    ensures forall p, k :: !IsTokenAt(s, p, k)
  {
    forall p, k | 0 <= p && p + |k| + 2 <= |s| ensures !IsTokenAt(s, p, k) {
      assert s[p] in s && s[p + 1 + |k|] in s;
    }
  }

  /** No token can start inside a token-free prefix `a` when the next character is `{`. */
  lemma TokenFreePrefix(a: string, s: string, q: int, k: string)
    requires forall p, key :: !IsTokenAt(a, p, key)
    requires |a| < |s| && s[..|a|] == a && s[|a|] == '{'
    requires 0 <= q < |a|
    ensures !IsTokenAt(s, q, k)
  {
    var e := q + 1 + |k|;
    if e < |a| {
      if e < |s| && s[q + 1..e] == k {
        assert a[q] == s[q] && a[e] == s[e];
        assert a[q + 1..e] == s[q + 1..e];
        assert !IsTokenAt(a, q, k);
      }
    } else if e > |a| {
      if e < |s| && s[q + 1..e] == k {
        assert k[|a| - q - 1] == s[|a|];
        assert !IsKeyChar(k[|a| - q - 1]);
      }
    }
  }

  lemma PlaceholderFacts()
    ensures HeadUnique(EnvironmentPlaceholder)
    ensures EnvironmentPlaceholder == "{" + EnvironmentToken + "}"
    ensures forall i :: 0 <= i < |EnvironmentToken| ==> IsKeyChar(EnvironmentToken[i])
  {
  }

  /** A template cut into pieces by `{environment}`, whose first piece holds no token and no
      piece holds `{environment}`, resolves to the same pieces joined by `env`: every
      occurrence of the leftmost token is replaced and every other character is kept. */
  lemma {:induction false} ResolveReplacesEveryOccurrence(parts: seq<string>, env: string)
    requires |parts| >= 2
    requires forall p, k :: !IsTokenAt(parts[0], p, k)
    requires forall i :: 0 <= i < |parts| ==> !Contains(parts[i], EnvironmentPlaceholder)
    ensures Resolve(JoinWith(parts, EnvironmentPlaceholder), env) == JoinWith(parts, env)
  {
    PlaceholderFacts();
    var a := parts[0];
    var s := JoinWith(parts, EnvironmentPlaceholder);
    assert s == a + EnvironmentPlaceholder + JoinWith(parts[1..], EnvironmentPlaceholder);
    assert s[|a|..|a| + 13] == EnvironmentPlaceholder;
    assert IsTokenAt(s, |a|, EnvironmentToken) by {
      assert s[|a|] == '{';
      assert s[|a| + 1..|a| + 12] == EnvironmentPlaceholder[1..12];
      assert s[|a| + 12] == '}';
    }
    forall q, k | 0 <= q < |a| ensures !IsTokenAt(s, q, k) {
      assert s[..|a|] == a;
      TokenFreePrefix(a, s, q, k);
    }
    assert IsLeftmostToken(s, |a|, EnvironmentToken);
    ReplaceAllJoin(parts, EnvironmentPlaceholder, env);
  }

  /** When the leftmost token has any key other than `environment` (`{}`, `{Environment}`,
      `{other}`, ...) the template comes back unchanged, even if `{environment}` follows. */
  lemma ResolveKeepsOtherKey(a: string, key: string, rest: string, env: string)
    requires '{' !in a
    requires forall i :: 0 <= i < |key| ==> IsKeyChar(key[i])
    requires key != EnvironmentToken
    ensures Resolve(a + "{" + key + "}" + rest, env) == a + "{" + key + "}" + rest
  {
    var s := a + "{" + key + "}" + rest;
    assert s[|a| + 1..|a| + 1 + |key|] == key;
    assert IsTokenAt(s, |a|, key);
    forall q, k | 0 <= q < |a| ensures !IsTokenAt(s, q, k) {
      assert s[q] == a[q];
      assert a[q] in a;
    }
    assert IsLeftmostToken(s, |a|, key);
  }

  /** The resource group template used for every subscription resolves to `feedme-` followed
      by the environment name. */
  lemma ResolveResourceGroup(env: string)
    ensures Resolve("feedme-{environment}", env) == "feedme-" + env
  {
    TrailingTemplate("feedme-", "feedme-{environment}");
    ResolveTrailingPlaceholder("feedme-", env);
  }

  /** A template made of brace-free text followed by `{environment}` resolves to that text
      followed by the environment name. */
  lemma ResolveTrailingPlaceholder(a: string, env: string)
    requires '{' !in a
    ensures Resolve(a + EnvironmentPlaceholder, env) == a + env
  {
    NoTokenWithoutBraces(a);
    assert !Contains(a, EnvironmentPlaceholder) by {
      forall i | 0 <= i <= |a| - |EnvironmentPlaceholder| ensures !OccursAt(a, EnvironmentPlaceholder, i) {
        assert a[i] != '{';
        assert EnvironmentPlaceholder[0] == '{';
      }
    }
    assert !Contains("", EnvironmentPlaceholder);
    ResolveReplacesEveryOccurrence([a, ""], env);
    assert JoinWith([a, ""], EnvironmentPlaceholder) == a + EnvironmentPlaceholder;
    assert JoinWith([a, ""], env) == a + env;
  }

  /** Literal facts about the two templates that end in `{environment}`. */
  lemma TrailingTemplate(a: string, template: string)
    requires a == "feedme-" || a == "topic-name-"
    requires template == a + "{environment}"
    ensures '{' !in a && template == a + EnvironmentPlaceholder
  {
  }

  lemma SampleTopicName()
    ensures "topic-name-" + "prod" == "topic-name-prod"
  {
  }

  /** The sample function's resource name. */
  lemma ResolveSampleTopic()
    ensures Resolve("topic-name-{environment}", "prod") == "topic-name-prod"
  {
    TrailingTemplate("topic-name-", "topic-name-{environment}");
    SampleTopicName();
    ResolveTrailingPlaceholder("topic-name-", "prod");
  }

  /** `{env1}` is no token: the run of key characters after `{` stops at the digit. */
  lemma DigitKeyIsNoToken()
    ensures forall p, k :: !IsTokenAt("{env1}-", p, k)
  {
    var a := "{env1}-";
    assert a == ['{', 'e', 'n', 'v', '1', '}', '-'];
    forall p, k ensures !IsTokenAt(a, p, k) {
      if 0 <= p && p + |k| + 2 <= |a| && a[p] == '{' && a[p + 1 + |k|] == '}' {
        assert p == 0 && |k| == 4;
        if a[1..5] == k {
          assert k[3] == '1';
        }
      }
    }
  }

  /** Since `{env1}` is no token, the later `{environment}` is the leftmost match and is
      replaced. */
  lemma ResolveSkipsDigitKey()
    ensures Resolve("{env1}-{environment}", "prod") == "{env1}-prod"
  {
    var parts := ["{env1}-", ""];
    assert JoinWith(parts, EnvironmentPlaceholder) == "{env1}-{environment}";
    assert JoinWith(parts, "prod") == "{env1}-prod";
    assert Resolve(JoinWith(parts, EnvironmentPlaceholder), "prod") == JoinWith(parts, "prod") by {
      DigitKeyIsNoToken();
      ResolveReplacesEveryOccurrence(parts, "prod");
    }
  }

  /** Literal facts about the example templates whose leftmost token has another key. */
  lemma OtherKeyTemplate()
    ensures "thing-{other}" == "thing-" + "{" + "other" + "}" + ""
    ensures forall i :: 0 <= i < |"other"| ==> IsKeyChar("other"[i])
  {
  }

  lemma CapitalKeyTemplate()
    ensures "{Environment}-{environment}" == "" + "{" + "Environment" + "}" + "-{environment}"
    ensures forall i :: 0 <= i < |"Environment"| ==> IsKeyChar("Environment"[i])
    ensures "Environment" != EnvironmentToken
  {
  }

  lemma EmptyKeyTemplate()
    ensures "{}-{environment}" == "" + "{" + "" + "}" + "-{environment}"
  {
  }

  /** A name without placeholder and a leftmost token with another key stay as they are. */
  lemma ResolveUnchangedExamples()
    ensures Resolve("static-name", "prod") == "static-name"
    ensures Resolve("thing-{other}", "prod") == "thing-{other}"
  {
    NoTokenWithoutBraces("static-name");
    OtherKeyTemplate();
    ResolveKeepsOtherKey("thing-", "other", "", "prod");
  }

  /** Matching is case-sensitive: `{Environment}` is a token with another key. */
  lemma ResolveIsCaseSensitive()
    ensures Resolve("{Environment}-{environment}", "prod") == "{Environment}-{environment}"
  {
    CapitalKeyTemplate();
    ResolveKeepsOtherKey("", "Environment", "-{environment}", "prod");
  }

  /** The empty key `{}` is a token too, and it hides a later `{environment}`. */
  lemma ResolveEmptyKey()
    ensures Resolve("{}-{environment}", "prod") == "{}-{environment}"
  {
    EmptyKeyTemplate();
    ResolveKeepsOtherKey("", "", "-{environment}", "prod");
  }
}

=== FILE: retry_policy.dfy ===
/** The behaviour the scanner relies on from Polly's `Policy.Handle<Exception>().WaitAndRetryAsync(plan)`:
    run the action; while it throws and the plan has a delay left, wait that delay and run it
    again. This module states that behaviour as a model of the library; the library's code is
    not part of this model. */
module RetryPolicy {

  /** One run of an action: the value it returned or the exception it threw. */
  datatype Attempt<+R> = Returned(value: R) | Threw(error: string)

  /** The final outcome, how many times the action ran, and the delays waited in between. */
  datatype Execution<+R> = Execution(outcome: Attempt<R>, attempts: nat, waits: seq<real>)

  /** The runs from the `k`-th on (the `k`-th run is `act(k)`). */
  function RunFrom<R>(plan: seq<real>, act: nat -> Attempt<R>, k: nat): (e: Execution<R>)
    requires k <= |plan|
    ensures k + 1 <= e.attempts <= |plan| + 1
    ensures e.waits == plan[k..e.attempts - 1]
    ensures forall j :: k <= j < e.attempts - 1 ==> act(j).Threw?
    ensures e.outcome == act(e.attempts - 1)
    ensures e.outcome.Threw? ==> e.attempts == |plan| + 1
    decreases |plan| - k
  {
    var a := act(k);
    if a.Returned? || k == |plan| then Execution(a, k + 1, [])
    else
      var rest := RunFrom(plan, act, k + 1);
      assert [plan[k]] + plan[k + 1..rest.attempts - 1] == plan[k..rest.attempts - 1];
      Execution(rest.outcome, rest.attempts, [plan[k]] + rest.waits)
  }

  /** `ExecuteAsync` under a wait-and-retry policy: at most one run more than the plan has
      delays; the runs before the last all threw; the delays waited are the plan's first
      ones, one per retry; an exception escapes only once the plan is used up. */
  function ExecuteWithRetry<R>(plan: seq<real>, act: nat -> Attempt<R>): (e: Execution<R>)
    ensures 1 <= e.attempts <= |plan| + 1
    ensures e.waits == plan[..e.attempts - 1]
    ensures forall j :: 0 <= j < e.attempts - 1 ==> act(j).Threw?
    ensures e.outcome == act(e.attempts - 1)
    ensures e.outcome.Threw? ==> e.attempts == |plan| + 1
  {
    RunFrom(plan, act, 0)
  }

  /** A call without a policy: one run, no waiting. */
  function ExecuteOnce<R>(act: nat -> Attempt<R>): (e: Execution<R>)
    ensures e.attempts == 1 && e.waits == [] && e.outcome == act(0)
  {
    Execution(act(0), 1, [])
  }

  /** Retrying stops at the first run that returns: when run `j` (within the plan's reach)
      returns, there are at most `j + 1` runs, and the outcome is a returned value. */
  lemma RetryStopsAtFirstReturn<R>(plan: seq<real>, act: nat -> Attempt<R>, j: nat)
    requires j <= |plan| && act(j).Returned?
    ensures ExecuteWithRetry(plan, act).attempts <= j + 1
    ensures ExecuteWithRetry(plan, act).outcome.Returned?
  {
    var e := ExecuteWithRetry(plan, act);
    assert j < e.attempts - 1 ==> act(j).Threw?;
  }

  /** An action that always throws runs once per delay plus once, waits every delay, and the
      last exception escapes. */
  lemma RetryExhausts<R>(plan: seq<real>, act: nat -> Attempt<R>)
    requires forall j :: 0 <= j <= |plan| ==> act(j).Threw?
    ensures ExecuteWithRetry(plan, act) == Execution(act(|plan|), |plan| + 1, plan)
  {
    var e := ExecuteWithRetry(plan, act);
    assert e.outcome.Threw?;
  }
}

=== FILE: solution_program.dfy ===
/** The older tool's entry point (`superfeed.eventgrid.tool.Program`): it scans a solution
    folder instead of one assembly, then applies the declarations exactly as the newer tool
    does. The directory walk, `function.json` parsing, path resolution and assembly loading
    are parameters; the Event Grid clients are the same `Program.Client` values as in the newer tool. */
module SolutionProgram {
  import opened Wrappers
  import opened Annotations
  import opened BackoffStrategy
  import opened Program
  import AssemblyScanner
  import SolutionScanner

  /** `UpdateSubscriptions(options)`: scan the solution with the optional filter, then update. */
  function UpdateSubscriptions<R>(files: seq<string>, read: string -> SolutionScanner.FunctionJson,
                                  fullPath: (string, string) -> string, filter: Option<string>,
                                  load: string -> AssemblyScanner.Assembly, dryRun: bool,
                                  clients: nat -> Client<R>, subscriptionId: string, env: string, draws: nat -> DrawStream)
    : (u: Update<R>)
    ensures dryRun ==> u == Update([], Completed(Success([])))
    ensures u.outcome.Completed? ==> u.outcome.result.Success?
    ensures !dryRun ==>
              var found := SolutionScanner.ScanSolution(files, read, fullPath, filter, load).value;
              |u.runs| == |found|
              && (forall i :: 0 <= i < |u.runs| ==> u.runs[i].request == RequestFor(found[i], subscriptionId, env))
              && (forall i :: 0 <= i < |u.runs| ==> AnsweredBy(u.runs[i], clients(i)))
              && u.outcome == Combine(u.runs)
  {
    UpdateFromScan(SolutionScanner.ScanSolution(files, read, fullPath, filter, load), dryRun, clients, subscriptionId, env, draws)
  }

  /** A solution whose `function.json` files all have excluded paths, or are all blank, or
      all rejected by the filter, sends nothing and completes with an empty success. */
  lemma NothingFoundSendsNothing<R>(files: seq<string>, read: string -> SolutionScanner.FunctionJson,
                                    fullPath: (string, string) -> string, filter: Option<string>,
                                    load: string -> AssemblyScanner.Assembly, dryRun: bool,
                                    clients: nat -> Client<R>, subscriptionId: string, env: string, draws: nat -> DrawStream)
    requires forall i :: 0 <= i < |files| ==>
               SolutionScanner.IsExcluded(files[i])
               || SolutionScanner.LocationOf(files, read, fullPath, i) == ""
               || !SolutionScanner.Accepts(filter, SolutionScanner.LocationOf(files, read, fullPath, i))
    ensures UpdateSubscriptions(files, read, fullPath, filter, load, dryRun, clients, subscriptionId, env, draws)
            == Update([], Completed(Success([])))
  {
    SolutionScanner.AssemblyPathsSpec(files, read, fullPath, filter);
    var paths := SolutionScanner.AssemblyPaths(files, read, fullPath, filter);
    if |paths| > 0 {
      assert false;
    }
    var scanned := SolutionScanner.ScanSolution(files, read, fullPath, filter, load);
    assert scanned.value == [];
  }
}

=== FILE: solution_scanner.dfy ===
/** The older scanner (`superfeed.eventgrid.tool.AssemblyScanner`): it finds the assemblies of
    a solution through the `function.json` files under it, narrows them by an optional file
    name filter, and scans each one. The directory walk, reading and parsing `function.json`,
    `Path.GetFullPath` and assembly loading are parameters. */
module SolutionScanner {
  import opened Wrappers
  import opened Text
  import opened Annotations
  import opened EnumerableExtensions
  import opened StringExtensions
  import AssemblyScanner

  /** `FunctionJson`: the two properties read from a `function.json`. */
  datatype FunctionJson = FunctionJson(scriptFile: Option<string>, entryPoint: Option<string>)

  /** A `function.json` whose path contains `output` or `api.metadata` anywhere is skipped: the
      test is an ordinal substring test on the whole path, not a folder test, so
      `C:\throughput\function.json` is skipped too. */
  predicate IsExcluded(path: string) {
    Contains(path, "output") || Contains(path, "api.metadata")
  }

  /** `LocateAssemblyPathOrEmpty`: the script file of the `function.json` at `jsonPath`, made
      absolute against the file's folder by `fullPath`, or the empty string when the script
      file is missing or blank. */
  function LocateAssemblyPathOrEmpty(jsonPath: string, json: FunctionJson, fullPath: (string, string) -> string)
    : (r: string)
    ensures DoesNotExist(json.scriptFile) ==> r == ""
    ensures !DoesNotExist(json.scriptFile) ==> r == fullPath(jsonPath, json.scriptFile.value)
  {
    if DoesNotExist(json.scriptFile) then "" else fullPath(jsonPath, json.scriptFile.value)
  }

  // ---------------------------------------------------------------------------------------
  // The file name filter

  /** The pattern `FilteringRegex` builds: `Regex.Escape` makes every character literal, then
      the escaped `*` becomes `.*`, and `$` closes it. */
  datatype RegexAtom = Literal(c: char) | AnyRun

  function FilteringRegex(filter: string): (atoms: seq<RegexAtom>)
    ensures |atoms| == |filter|
    ensures forall i :: 0 <= i < |filter| ==> (atoms[i] == AnyRun <==> filter[i] == '*')
    ensures forall i :: 0 <= i < |filter| && filter[i] != '*' ==> atoms[i] == Literal(filter[i])
  {
    seq(|filter|, i requires 0 <= i < |filter| => if filter[i] == '*' then AnyRun else Literal(filter[i]))
  }

  /** `s` is matched by the atoms as a whole; `.` matches any character but `\n`. */
  predicate FullMatch(s: string, atoms: seq<RegexAtom>)
    decreases |atoms|, |s|
  {
    if |atoms| == 0 then |s| == 0
    else match atoms[0]
      case Literal(c) => |s| > 0 && s[0] == c && FullMatch(s[1..], atoms[1..])
      case AnyRun => FullMatch(s, atoms[1..]) || (|s| > 0 && s[0] != '\n' && FullMatch(s[1..], atoms))
  }

  /** `$` without `RegexOptions.Multiline`: at the end, or just before a final `\n`. */
  predicate AtEnd(s: string, j: int) {
    j == |s| || (0 <= j == |s| - 1 && s[j] == '\n')
  }

  /** `Regex.IsMatch(path, FilteringRegex(filter))`: the match may start anywhere and must
      end where `$` holds. */
  predicate IsMatch(path: string, filter: string) {
    exists i, j :: 0 <= i <= j <= |path| && AtEnd(path, j) && FullMatch(path[i..j], FilteringRegex(filter))
  }

  /** The filter step: no filter keeps every path. */
  predicate Accepts(filter: Option<string>, path: string) {
    filter.None? || IsMatch(path, filter.value)
  }

  /** Literal atoms match exactly their own text. */
  lemma {:induction false} LiteralAtomsMatch(s: string, filter: string)
    requires '*' !in filter
    ensures FullMatch(s, FilteringRegex(filter)) <==> s == filter
    decreases |filter|
  {
    var atoms := FilteringRegex(filter);
    if |filter| > 0 {
      assert filter[0] in filter;
      assert atoms[1..] == FilteringRegex(filter[1..]);
      assert forall c :: c in filter[1..] ==> c in filter;
      if |s| > 0 {
        LiteralAtomsMatch(s[1..], filter[1..]);
        if s[0] == filter[0] && s[1..] == filter[1..] {
          assert s == [s[0]] + s[1..] && filter == [filter[0]] + filter[1..];
        }
      }
    }
  }

  /** A match of a filter without `*` is the filter at the end, or before a final `\n`. */
  lemma LiteralMatchAtEnd(path: string, filter: string)
    requires '*' !in filter && IsMatch(path, filter)
    ensures EndsWith(path, filter) || EndsWith(path, filter + "\n")
  {
    var i, j :| 0 <= i <= j <= |path| && AtEnd(path, j) && FullMatch(path[i..j], FilteringRegex(filter));
    LiteralAtomsMatch(path[i..j], filter);
    assert j - i == |filter|;
    if j == |path| {
      assert path[|path| - |filter|..] == path[i..j];
    } else {
      assert path[j] == '\n' && j == |path| - 1;
      assert path[|path| - |filter| - 1..] == path[i..j] + [path[j]];
    }
  }

  /** A path ending with a filter without `*`, or with it and a final `\n`, is matched. */
  lemma LiteralEndMatches(path: string, filter: string)
    requires '*' !in filter
    requires EndsWith(path, filter) || EndsWith(path, filter + "\n")
    ensures IsMatch(path, filter)
  {
    if EndsWith(path, filter) {
      var i := |path| - |filter|;
      LiteralAtomsMatch(path[i..|path|], filter);
      assert AtEnd(path, |path|);
    } else {
      var i, j := |path| - |filter| - 1, |path| - 1;
      assert path[i..] == filter + "\n";
      assert path[i..j] == path[i..][..|filter|];
      LiteralAtomsMatch(path[i..j], filter);
      assert AtEnd(path, j);
    }
  }

  /** A filter without `*` keeps exactly the paths that end with it, or with it followed by
      a final `\n`. */
  lemma LiteralFilter(path: string, filter: string)
    requires '*' !in filter
    ensures IsMatch(path, filter) <==> EndsWith(path, filter) || EndsWith(path, filter + "\n")
  {
    if IsMatch(path, filter) {
      LiteralMatchAtEnd(path, filter);
    }
    if EndsWith(path, filter) || EndsWith(path, filter + "\n") {
      LiteralEndMatches(path, filter);
    }
  }

  /** The filter `*` keeps every path: `.*` matches the empty text at the end. */
  lemma StarFilterKeepsAll(path: string)
    ensures IsMatch(path, "*")
  {
    var atoms := FilteringRegex("*");
    assert atoms == [AnyRun];
    assert FullMatch(path[|path|..|path|], atoms[1..]);
    assert FullMatch(path[|path|..|path|], atoms);
    assert AtEnd(path, |path|);
  }

  // ---------------------------------------------------------------------------------------
  // The path pipeline

  /** `Where(keep)` on a sequence of paths: the kept ones in their order. */
  function Where(xs: seq<string>, keep: string -> bool): seq<string>
  {
    if |xs| == 0 then []
    else if keep(xs[|xs| - 1]) then Where(xs[..|xs| - 1], keep) + [xs[|xs| - 1]]
    else Where(xs[..|xs| - 1], keep)
  }

  /** `Where` keeps exactly the elements `keep` accepts, in source order. */
  lemma {:induction false} WhereSpec(xs: seq<string>, keep: string -> bool)
    ensures forall k :: 0 <= k < |Where(xs, keep)| ==> Where(xs, keep)[k] in xs && keep(Where(xs, keep)[k])
    ensures forall i :: 0 <= i < |xs| && keep(xs[i]) ==> xs[i] in Where(xs, keep)
    ensures IsSubsequence(Where(xs, keep), xs)
  {
    if |xs| > 0 {
      var init, last := xs[..|xs| - 1], xs[|xs| - 1];
      WhereSpec(init, keep);
      var w := Where(init, keep);
      assert forall i :: 0 <= i < |init| ==> init[i] == xs[i];
      assert forall x :: x in init ==> x in xs;
      if keep(last) {
        var r := w + [last];
        assert r[..|w|] == w;
        assert r[|r| - 1] == last;
        assert IsSubsequence(r, xs);
        forall k | 0 <= k < |r| ensures r[k] in xs && keep(r[k]) {
          if k < |w| { assert r[k] == w[k]; }
        }
      } else {
        assert |w| == 0 || IsSubsequence(w, xs[..|xs| - 1]);
      }
    }
  }

  /** Where each `function.json` points. */
  function Locations(files: seq<string>, read: string -> FunctionJson, fullPath: (string, string) -> string)
    : (located: seq<string>)
    ensures |located| == |files|
    ensures forall i :: 0 <= i < |files| ==> located[i] == LocateAssemblyPathOrEmpty(files[i], read(files[i]), fullPath)
  {
    seq(|files|, i requires 0 <= i < |files| => LocateAssemblyPathOrEmpty(files[i], read(files[i]), fullPath))
  }

  /** The located paths of the `function.json` files with a non-excluded path, without the
      empty ones, narrowed by the filter. */
  function Filtered(files: seq<string>, read: string -> FunctionJson, fullPath: (string, string) -> string,
                    filter: Option<string>): seq<string>
  {
    var candidates := Where(files, f => !IsExcluded(f));
    var located := Locations(candidates, read, fullPath);
    var existing := Where(located, p => Exists(Some(p)));
    Where(existing, p => Accepts(filter, p))
  }

  /** The assembly paths of a solution: the `function.json` files (as the directory walk lists
      them) with a non-excluded path, located, without the empty ones, narrowed by the filter,
      and without repetitions. */
  function AssemblyPaths(files: seq<string>, read: string -> FunctionJson, fullPath: (string, string) -> string,
                         filter: Option<string>): seq<string>
  {
    Distinct(Filtered(files, read, fullPath, filter))
  }

  /** The location of the `i`-th file. */
  function LocationOf(files: seq<string>, read: string -> FunctionJson, fullPath: (string, string) -> string, i: int): string
    requires 0 <= i < |files|
  {
    LocateAssemblyPathOrEmpty(files[i], read(files[i]), fullPath)
  }

  /** Every filtered path is the non-empty, accepted location of a file with a non-excluded path. */
  lemma FilteredSound(files: seq<string>, read: string -> FunctionJson, fullPath: (string, string) -> string,
                      filter: Option<string>, p: string)
    requires p in Filtered(files, read, fullPath, filter)
    ensures p != "" && Accepts(filter, p)
    ensures exists i :: 0 <= i < |files| && !IsExcluded(files[i]) && LocationOf(files, read, fullPath, i) == p
  {
    var candidates := Where(files, f => !IsExcluded(f));
    var located := Locations(candidates, read, fullPath);
    var existing := Where(located, p => Exists(Some(p)));
    var filtered := Where(existing, p => Accepts(filter, p));
    WhereSpec(files, f => !IsExcluded(f));
    WhereSpec(located, p => Exists(Some(p)));
    WhereSpec(existing, p => Accepts(filter, p));
    var a :| 0 <= a < |filtered| && filtered[a] == p;
    var b :| 0 <= b < |existing| && existing[b] == p;
    var c :| 0 <= c < |located| && located[c] == p;
    assert candidates[c] in files;
    var i :| 0 <= i < |files| && files[i] == candidates[c];
    assert LocationOf(files, read, fullPath, i) == p;
  }

  /** Every non-empty, accepted location of a file with a non-excluded path is filtered in. */
  lemma FilteredComplete(files: seq<string>, read: string -> FunctionJson, fullPath: (string, string) -> string,
                         filter: Option<string>, i: int)
    requires 0 <= i < |files| && !IsExcluded(files[i])
    requires LocationOf(files, read, fullPath, i) != "" && Accepts(filter, LocationOf(files, read, fullPath, i))
    ensures LocationOf(files, read, fullPath, i) in Filtered(files, read, fullPath, filter)
  {
    var candidates := Where(files, f => !IsExcluded(f));
    var located := Locations(candidates, read, fullPath);
    var existing := Where(located, p => Exists(Some(p)));
    WhereSpec(files, f => !IsExcluded(f));
    WhereSpec(located, p => Exists(Some(p)));
    WhereSpec(existing, p => Accepts(filter, p));
    var p := LocationOf(files, read, fullPath, i);
    var c :| 0 <= c < |candidates| && candidates[c] == files[i];
    assert located[c] == p;
    var b :| 0 <= b < |existing| && existing[b] == p;
  }

  /** The assembly paths are exactly the non-empty locations, accepted by the filter, of
      `function.json` files with a non-excluded path, each listed once. */
  lemma AssemblyPathsSpec(files: seq<string>, read: string -> FunctionJson, fullPath: (string, string) -> string,
                          filter: Option<string>)
    ensures var paths := AssemblyPaths(files, read, fullPath, filter);
      && (forall i, j :: 0 <= i < j < |paths| ==> paths[i] != paths[j])
      && (forall k :: 0 <= k < |paths| ==>
            paths[k] != "" && Accepts(filter, paths[k])
            && exists i :: 0 <= i < |files| && !IsExcluded(files[i]) && LocationOf(files, read, fullPath, i) == paths[k])
      && (forall i :: (0 <= i < |files| && !IsExcluded(files[i]) && LocationOf(files, read, fullPath, i) != ""
                       && Accepts(filter, LocationOf(files, read, fullPath, i)))
                      ==> LocationOf(files, read, fullPath, i) in paths)
  {
    var filtered := Filtered(files, read, fullPath, filter);
    var paths := Distinct(filtered);
    forall k | 0 <= k < |paths|
      ensures paths[k] != "" && Accepts(filter, paths[k])
      ensures exists i :: 0 <= i < |files| && !IsExcluded(files[i]) && LocationOf(files, read, fullPath, i) == paths[k]
    {
      FilteredSound(files, read, fullPath, filter, paths[k]);
    }
    forall i | (0 <= i < |files| && !IsExcluded(files[i]) && LocationOf(files, read, fullPath, i) != ""
                && Accepts(filter, LocationOf(files, read, fullPath, i)))
      ensures LocationOf(files, read, fullPath, i) in paths
    {
      FilteredComplete(files, read, fullPath, filter, i);
      var a :| 0 <= a < |filtered| && filtered[a] == LocationOf(files, read, fullPath, i);
    }
  }

  /** An empty location is dropped for being empty, whatever the filter: the check is on the
      string, not on the file system. */
  lemma EmptyLocationDropped(files: seq<string>, read: string -> FunctionJson, fullPath: (string, string) -> string,
                             filter: Option<string>)
    ensures "" !in AssemblyPaths(files, read, fullPath, filter)
  {
    AssemblyPathsSpec(files, read, fullPath, filter);
  }

  /** `ScanAssemblies`: the declarations of each assembly, assembly after assembly. */
  function ScanAssemblies(paths: seq<string>, load: string -> AssemblyScanner.Assembly): seq<SubscriptionAttribute> {
    if |paths| == 0 then []
    else ScanAssemblies(paths[..|paths| - 1], load) + AssemblyScanner.ScanAssembly(load(paths[|paths| - 1])).value
  }

  /** A declaration is found exactly when some assembly of the list declares it. */
  lemma {:induction false} ScanAssembliesMembers(paths: seq<string>, load: string -> AssemblyScanner.Assembly)
    ensures forall s :: s in ScanAssemblies(paths, load) <==>
      exists i :: 0 <= i < |paths| && s in AssemblyScanner.ScanAssembly(load(paths[i])).value
    decreases |paths|
  {
    if |paths| > 0 {
      var init := paths[..|paths| - 1];
      ScanAssembliesMembers(init, load);
      assert forall i :: 0 <= i < |init| ==> init[i] == paths[i];
    }
  }

  /** One assembly contributes its own declarations, in its own order. */
  lemma ScanAssembliesSingle(p: string, load: string -> AssemblyScanner.Assembly)
    ensures ScanAssemblies([p], load) == AssemblyScanner.ScanAssembly(load(p)).value
  {
    assert [p][..0] == [];
  }

  /** The scan distributes over the path list, like `SelectMany`: the declarations of the
      assemblies of `a` come first, then those of `b`, each as often as it is declared. */
  lemma {:induction false} ScanAssembliesAppend(a: seq<string>, b: seq<string>, load: string -> AssemblyScanner.Assembly)
    ensures ScanAssemblies(a + b, load) == ScanAssemblies(a, load) + ScanAssemblies(b, load)
    decreases |b|
  {
    if |b| == 0 {
      assert a + b == a;
    } else {
      var ab := a + b;
      var b' := b[..|b| - 1];
      assert ab[..|ab| - 1] == a + b';
      assert ab[|ab| - 1] == b[|b| - 1];
      ScanAssembliesAppend(a, b', load);
      var last := AssemblyScanner.ScanAssembly(load(b[|b| - 1])).value;
      assert ScanAssemblies(ab, load) == ScanAssemblies(a + b', load) + last;
      assert ScanAssemblies(b, load) == ScanAssemblies(b', load) + last;
    }
  }

  /** `ScanSubscriptions(solutionPath, filter)`: the declarations of every assembly the
      solution's `function.json` files point to. `Combine` over the located paths never
      fails, since locating returns a success or throws, so neither does the scan. */
  function ScanSolution(files: seq<string>, read: string -> FunctionJson, fullPath: (string, string) -> string,
                        filter: Option<string>, load: string -> AssemblyScanner.Assembly)
    : (r: Result<seq<SubscriptionAttribute>, string>)
    ensures r.Success?
    ensures forall s :: s in r.value <==>
      exists i :: 0 <= i < |AssemblyPaths(files, read, fullPath, filter)|
                  && s in AssemblyScanner.ScanAssembly(load(AssemblyPaths(files, read, fullPath, filter)[i])).value
  {
    ScanAssembliesMembers(AssemblyPaths(files, read, fullPath, filter), load);
    Success(ScanAssemblies(AssemblyPaths(files, read, fullPath, filter), load))
  }

  /** The declarations of the path `p` sit, in their own order and multiplicity, between
      those of the paths before it and those after it. */
  lemma ScanAssembliesAround(a: seq<string>, p: string, c: seq<string>, load: string -> AssemblyScanner.Assembly)
    ensures ScanAssemblies(a + [p] + c, load)
      == ScanAssemblies(a, load) + AssemblyScanner.ScanAssembly(load(p)).value + ScanAssemblies(c, load)
  {
    ScanAssembliesAppend(a + [p], c, load);
    ScanAssembliesAppend(a, [p], load);
    ScanAssembliesSingle(p, load);
  }

  /** The solution's declarations in order: those of the `i`-th assembly path sit between those
      of the paths before it and those after it. */
  lemma ScanSolutionAroundPath(files: seq<string>, read: string -> FunctionJson, fullPath: (string, string) -> string,
                               filter: Option<string>, load: string -> AssemblyScanner.Assembly, i: nat)
    requires i < |AssemblyPaths(files, read, fullPath, filter)|
    ensures var paths := AssemblyPaths(files, read, fullPath, filter);
      ScanSolution(files, read, fullPath, filter, load).value
        == ScanAssemblies(paths[..i], load) + AssemblyScanner.ScanAssembly(load(paths[i])).value
           + ScanAssemblies(paths[i + 1..], load)
  {
    var paths := AssemblyPaths(files, read, fullPath, filter);
    assert paths == paths[..i] + [paths[i]] + paths[i + 1..];
    ScanAssembliesAround(paths[..i], paths[i], paths[i + 1..], load);
  }
}

=== FILE: string_extensions.dfy ===
/** The pure members of `StringExtensions`. A C# string that may be `null` is an
    `Option<string>`; members that would throw on a `null` receiver take a `string`. */
module StringExtensions {
  import opened Wrappers
  import opened Text

  /** `string.IsNullOrWhiteSpace`. */
  predicate IsNullOrWhiteSpace(s: Option<string>) {
    s.None? || forall i :: 0 <= i < |s.value| ==> IsWhiteSpace(s.value[i])
  }

  /** `Exists()`: not `string.IsNullOrEmpty`. */
  predicate Exists(s: Option<string>) {
    s.Some? && |s.value| > 0
  }

  /** `DoesNotExist()`: `string.IsNullOrWhiteSpace`. */
  predicate DoesNotExist(s: Option<string>) {
    IsNullOrWhiteSpace(s)
  }

  /** `Exists` and `DoesNotExist` are not complements: every string that does not exist in
      the first sense does not exist in the second, but a non-empty blank string both exists
      and does not exist. */
  lemma ExistsVersusDoesNotExist(s: Option<string>)
    ensures !Exists(s) ==> DoesNotExist(s)
    ensures Exists(s) && DoesNotExist(s) <==>
      s.Some? && |s.value| > 0 && forall i :: 0 <= i < |s.value| ==> IsWhiteSpace(s.value[i])
    ensures Exists(Some(" ")) && DoesNotExist(Some(" "))
  {
    assert IsWhiteSpace(" "[0]);
  }

  /** `UseNewIfNotEmpty(other)`: `other` when it exists, else the original. */
  function UseNewIfNotEmpty(original: Option<string>, other: Option<string>): (r: Option<string>)
    ensures r == other || r == original
    ensures Exists(original) || Exists(other) ==> Exists(r)
    ensures Exists(other) ==> r == other
    ensures !Exists(other) ==> r == original
  {
    if Exists(other) then other else original
  }

  /** `IfEmpty(other)`: `other` when the original is null, empty or blank, else the original.
      The result is never blank unless it is the fallback. */
  function IfEmpty(original: Option<string>, other: Option<string>): (r: Option<string>)
    ensures r == other || r == original
    ensures !DoesNotExist(r) || r == other
    ensures Exists(other) ==> Exists(r)
    ensures !DoesNotExist(original) ==> r == original
  {
    if DoesNotExist(original) then other else original
  }

  /** A blank value counts as present for `UseNewIfNotEmpty` but as missing for `IfEmpty`. */
  lemma BlankChoices(original: Option<string>, other: Option<string>)
    ensures UseNewIfNotEmpty(original, Some(" ")) == Some(" ")
    ensures IfEmpty(Some(" "), other) == other
  {
    assert IsWhiteSpace(" "[0]);
  }

  /** `UseNewIfNotEmpty` is `IfEmpty` with the roles swapped, except on a non-empty blank
      `other`: that one replaces the original for `UseNewIfNotEmpty`, while `IfEmpty` treats it
      as missing and falls back to the original. */
  lemma UseNewIsSwappedIfEmpty(original: Option<string>, other: Option<string>)
    ensures !(Exists(other) && DoesNotExist(other)) ==> UseNewIfNotEmpty(original, other) == IfEmpty(other, original)
    ensures Exists(other) && DoesNotExist(other) ==>
              UseNewIfNotEmpty(original, other) == other && IfEmpty(other, original) == original
  {
    ExistsVersusDoesNotExist(other);
  }

  /** `IsQuoted()`: starts and ends with `"`; a lone `"` is quoted. */
  predicate IsQuoted(s: string) {
    StartsWith(s, "\"") && EndsWith(s, "\"")
  }

  lemma IsQuotedIff(s: string)
    ensures IsQuoted(s) <==> |s| >= 1 && s[0] == '"' && s[|s| - 1] == '"'
    ensures IsQuoted("\"")
  {
    if |s| >= 1 {
      assert s[..1] == [s[0]];
      assert s[|s| - 1..] == [s[|s| - 1]];
    }
    assert "\""[..1] == "\"";
  }

  /** `ContainsAny(values)`: some value is a substring. */
  predicate ContainsAny(str: string, values: seq<string>) {
    exists i :: 0 <= i < |values| && Contains(str, values[i])
  }

  /** `ContainsAny` agrees with a search by `IndexOf`; the empty value is contained in every
      string, and no values contain nothing. */
  lemma ContainsAnyFacts(str: string, values: seq<string>)
    ensures ContainsAny(str, values) <==> exists i :: 0 <= i < |values| && IndexOf(str, values[i]).Some?
    ensures "" in values ==> ContainsAny(str, values)
    ensures !ContainsAny(str, [])
  {
    if "" in values {
      var i :| 0 <= i < |values| && values[i] == "";
      assert OccursAt(str, "", 0);
    }
  }

  /** `Partition()`: `Split('-')[0]`, the text before the first `-`, or all of it. */
  function Partition(str: string): (r: string)
    ensures '-' !in r
    ensures StartsWith(str, r)
    ensures |r| < |str| ==> str[|r|] == '-'
  {
    var parts := SplitOn(str, '-');
    if |parts| == 1 then
      assert JoinOn(parts, '-') == parts[0];
      parts[0]
    else
      JoinOnCons(parts[0], parts[1..], '-');
      assert parts == [parts[0]] + parts[1..];
      parts[0]
  }

  /** `Partition` stops at the first `-` and nowhere else: text without `-` is its own
      partition, and `a + "-" + b` partitions to `a` when `a` has no `-`. */
  lemma PartitionCases(a: string, b: string)
    requires '-' !in a
    ensures Partition(a) == a
    ensures Partition(a + "-" + b) == a
  {
    SplitOnFree(a, '-');
    SplitOnConcat(a, '-', b);
    assert a + "-" + b == a + ['-'] + b;
  }

  /** `oldValue` replaced by `newValue` at index `i`. */
  function ReplaceAt(s: string, i: nat, pat: string, rep: string): string
    requires i + |pat| <= |s|
  {
    s[..i] + rep + s[i + |pat|..]
  }

  /** `ReplaceFirstOccurenceOrOriginal(oldValue, newValue)`: when all three are present (not
      null or blank) and `oldValue` occurs, its first ordinal occurrence is replaced by
      `newValue`; otherwise the original comes back. */
  function ReplaceFirstOccurenceOrOriginal(originalText: Option<string>, oldValue: Option<string>, newValue: Option<string>)
    : (r: Option<string>)
    ensures DoesNotExist(originalText) || DoesNotExist(oldValue) || DoesNotExist(newValue) ==> r == originalText
    ensures !DoesNotExist(originalText) && !DoesNotExist(oldValue) && !DoesNotExist(newValue) ==>
              var s, pat := originalText.value, oldValue.value;
              && (!Contains(s, pat) ==> r == originalText)
              && (Contains(s, pat) ==>
                    exists i :: OccursAt(s, pat, i) && (forall j :: 0 <= j < i ==> !OccursAt(s, pat, j))
                                && r == Some(ReplaceAt(s, i, pat, newValue.value)))
  {
    if DoesNotExist(originalText) || DoesNotExist(oldValue) || DoesNotExist(newValue) then originalText
    else
      var s, pat := originalText.value, oldValue.value;
      match IndexOf(s, pat)
      case None => originalText
      case Some(start) =>
        assert OccursAt(s, pat, start) && forall j :: 0 <= j < start ==> !OccursAt(s, pat, j);
        Some(ReplaceAt(s, start, pat, newValue.value))
  }

  /** An occurrence at `i` and none elsewhere: neither the text before nor the text after
      contains the pattern. */
  lemma SingleOccurrence(s: string, pat: string, i: nat)
    requires |pat| > 0 && OccursAt(s, pat, i)
    requires forall j :: 0 <= j <= |s| - |pat| && j != i ==> !OccursAt(s, pat, j)
    ensures s == s[..i] + pat + s[i + |pat|..]
    ensures !Contains(s[..i], pat) && !Contains(s[i + |pat|..], pat)
  {
    var a, b := s[..i], s[i + |pat|..];
    forall j | 0 <= j <= |a| - |pat| ensures !OccursAt(a, pat, j) {
      assert a[j..j + |pat|] == s[j..j + |pat|];
      assert j != i && j <= |s| - |pat|;
      assert !OccursAt(s, pat, j);
    }
    forall j | 0 <= j <= |b| - |pat| ensures !OccursAt(b, pat, j) {
      var k := i + |pat| + j;
      assert b[j..j + |pat|] == s[k..k + |pat|];
      assert !OccursAt(s, pat, k);
    }
  }

  /** When `oldValue` occurs once, replacing the first occurrence is replacing every
      occurrence (`string.Replace`). */
  lemma ReplaceFirstIsReplaceAllWhenSingle(s: string, pat: string, rep: string, i: nat)
    requires !DoesNotExist(Some(s)) && !DoesNotExist(Some(pat)) && !DoesNotExist(Some(rep))
    requires OccursAt(s, pat, i)
    requires forall j :: 0 <= j <= |s| - |pat| && j != i ==> !OccursAt(s, pat, j)
    ensures ReplaceFirstOccurenceOrOriginal(Some(s), Some(pat), Some(rep)) == Some(ReplaceAll(s, pat, rep))
  {
    assert |pat| > 0;
    SingleOccurrence(s, pat, i);
    var a, b := s[..i], s[i + |pat|..];
    assert Contains(s, pat);
    assert IndexOf(s, pat) == Some(i);
    ReplaceAllFirstAt(s, pat, rep, i);
    ReplaceAllAbsent(b, pat, rep);
  }

  /** `Truncate(maxLength)`: nothing for a non-positive length; a null or blank text as it is
      whatever its length; otherwise the prefix of at most `maxLength` characters. */
  function Truncate(originalText: Option<string>, maxLength: int): (r: Option<string>)
    ensures maxLength <= 0 ==> r == Some("")
    ensures maxLength > 0 && DoesNotExist(originalText) ==> r == originalText
    ensures maxLength > 0 && !DoesNotExist(originalText) ==>
              r.Some? && StartsWith(originalText.value, r.value)
              && |r.value| == (if |originalText.value| <= maxLength then |originalText.value| else maxLength)
  {
    if maxLength <= 0 then Some("")
    else if DoesNotExist(originalText) then originalText
    else if |originalText.value| <= maxLength then originalText
    else Some(originalText.value[..maxLength])
  }

  /** Truncating twice to the same length is truncating once. */
  lemma TruncateIdempotent(s: Option<string>, maxLength: int)
    ensures Truncate(Truncate(s, maxLength), maxLength) == Truncate(s, maxLength)
  {
  }

  /** `ExistsAndEquals(compareWith)`: the input exists and equals `compareWith` (ordinal);
      a null input is not dereferenced. */
  predicate ExistsAndEquals(input: Option<string>, compareWith: Option<string>) {
    Exists(input) && input == compareWith
  }

  /** `ExistsAndEquals` is symmetric, and holds only between equal existing strings. */
  lemma ExistsAndEqualsSymmetric(a: Option<string>, b: Option<string>)
    ensures ExistsAndEquals(a, b) <==> ExistsAndEquals(b, a)
    ensures ExistsAndEquals(a, b) ==> a == b && Exists(b)
  {
  }

  /** `StringExtensions.Dash`. */
  const Dash: string := "-"

  /** A string as string interpolation inserts it: `null` inserts nothing. */
  function Interpolated(s: Option<string>): string {
    s.GetOr("")
  }

  /** `Prefix(prefix, separator = Dash)`: `$"{prefix}{separator}{s}"`. */
  function Prefix(s: Option<string>, prefix: Option<string>, separator: Option<string> := Some(Dash)): (r: string)
    ensures EndsWith(r, Interpolated(s)) && StartsWith(r, Interpolated(prefix))
    ensures |r| == |Interpolated(prefix)| + |Interpolated(separator)| + |Interpolated(s)|
    ensures r[|Interpolated(prefix)|..|r| - |Interpolated(s)|] == Interpolated(separator)
  {
    Interpolated(prefix) + Interpolated(separator) + Interpolated(s)
  }

  /** `Suffix(suffix, separator = "")`: `$"{s}{separator}{suffix}"`. */
  function Suffix(s: Option<string>, suffix: Option<string>, separator: Option<string> := Some("")): (r: string)
    ensures StartsWith(r, Interpolated(s)) && EndsWith(r, Interpolated(suffix))
    ensures |r| == |Interpolated(s)| + |Interpolated(separator)| + |Interpolated(suffix)|
    ensures r[|Interpolated(s)|..|r| - |Interpolated(suffix)|] == Interpolated(separator)
  {
    Interpolated(s) + Interpolated(separator) + Interpolated(suffix)
  }

  /** `DashSuffix(suffix)`: `Suffix(suffix, Dash)`, the text, one `-`, then the suffix. */
  function DashSuffix(s: Option<string>, suffix: Option<string>): (r: string)
    ensures StartsWith(r, Interpolated(s)) && EndsWith(r, Interpolated(suffix))
    ensures |r| == |Interpolated(s)| + 1 + |Interpolated(suffix)|
    ensures r[|Interpolated(s)|] == '-'
  {
    Suffix(s, suffix, Some(Dash))
  }

  /** Prefixing is suffixing with the roles swapped; with the default separators, prefixing
      puts a dash in between and suffixing puts nothing. */
  lemma PrefixSuffixDuality(s: Option<string>, x: Option<string>, separator: Option<string>)
    ensures Prefix(s, x, separator) == Suffix(x, s, separator)
    ensures Prefix(s, x) == DashSuffix(x, s)
    ensures Suffix(s, x) == Interpolated(s) + Interpolated(x)
  {
  }
}

=== FILE: text.dfy ===
/** String primitives of the .NET base library that the model relies on, all with ordinal
    (code-unit by code-unit) comparison: `Contains`, `IndexOf`, `Replace`, `Split(char)`,
    `StartsWith`, `EndsWith` and `char.IsWhiteSpace`. */
module Text {
  import opened Wrappers

  /** `pat` occurs in `s` starting at index `i`. */
  predicate OccursAt(s: string, pat: string, i: int) {
    0 <= i && i + |pat| <= |s| && s[i..i + |pat|] == pat
  }

  /** `string.Contains(string)`: ordinal substring test. */
  predicate Contains(s: string, pat: string) {
    exists i | 0 <= i <= |s| - |pat| :: OccursAt(s, pat, i)
  }

  predicate StartsWith(s: string, prefix: string) {
    |prefix| <= |s| && s[..|prefix|] == prefix
  }

  predicate EndsWith(s: string, suffix: string) {
    |suffix| <= |s| && s[|s| - |suffix|..] == suffix
  }

  /** `char.IsWhiteSpace`: the Unicode space, line and paragraph separators together with
      U+0009..U+000D, U+0085 and U+00A0. */
  predicate IsWhiteSpace(c: char) {
    var n := c as int;
    || n == 0x20 || (0x09 <= n <= 0x0D) || n == 0x85 || n == 0xA0 || n == 0x1680
    || (0x2000 <= n <= 0x200A) || n == 0x2028 || n == 0x2029 || n == 0x202F
    || n == 0x205F || n == 0x3000
  }

  /** The index of the first occurrence of `pat` at or after `from`, as `IndexOf` finds it. */
  function IndexOfFrom(s: string, pat: string, from: nat): (r: Option<nat>)
    ensures r.Some? ==> from <= r.value && OccursAt(s, pat, r.value)
    ensures r.Some? ==> forall j :: from <= j < r.value ==> !OccursAt(s, pat, j)
    ensures r.None? ==> forall j :: from <= j ==> !OccursAt(s, pat, j)
    decreases |s| - from
  {
    if from + |pat| > |s| then None
    else if s[from..from + |pat|] == pat then Some(from)
    else IndexOfFrom(s, pat, from + 1)
  }

  /** `string.IndexOf(pat, StringComparison.Ordinal)`, with `None` for -1. */
  function IndexOf(s: string, pat: string): (r: Option<nat>)
    ensures r.Some? <==> Contains(s, pat)
    ensures r.Some? ==> OccursAt(s, pat, r.value) && forall j :: 0 <= j < r.value ==> !OccursAt(s, pat, j)
  {
    IndexOfFrom(s, pat, 0)
  }

  /** `string.Replace(pat, rep)`: every non-overlapping occurrence of `pat`, scanning from the
      left, is replaced by `rep`. The library throws for an empty `pat`, hence the requires. */
  function ReplaceAll(s: string, pat: string, rep: string): string
    requires |pat| > 0
    decreases |s|
  {
    if |s| < |pat| then s
    else if s[..|pat|] == pat then rep + ReplaceAll(s[|pat|..], pat, rep)
    else [s[0]] + ReplaceAll(s[1..], pat, rep)
  }

  /** `Replace` introduces no character that neither the string nor the replacement holds. */
  lemma {:induction false} ReplaceAllKeepsOut(s: string, pat: string, rep: string, c: char)
    requires |pat| > 0 && c !in s && c !in rep
    ensures c !in ReplaceAll(s, pat, rep)
    decreases |s|
  {
    if |s| < |pat| {
    } else if s[..|pat|] == pat {
      assert forall i :: 0 <= i < |s| - |pat| ==> s[|pat|..][i] == s[i + |pat|];
      ReplaceAllKeepsOut(s[|pat|..], pat, rep, c);
    } else {
      assert forall i :: 0 <= i < |s| - 1 ==> s[1..][i] == s[i + 1];
      ReplaceAllKeepsOut(s[1..], pat, rep, c);
    }
  }

  /** A string without an occurrence of `pat` comes back unchanged. */
  lemma {:induction false} ReplaceAllAbsent(s: string, pat: string, rep: string)
    requires |pat| > 0 && !Contains(s, pat)
    ensures ReplaceAll(s, pat, rep) == s
    decreases |s|
  {
    if |s| >= |pat| {
      assert !OccursAt(s, pat, 0);
      TailFree(s, pat);
      ReplaceAllAbsent(s[1..], pat, rep);
      assert [s[0]] + s[1..] == s;
    }
  }

  /** Replacing `pat` by itself changes nothing. */
  lemma {:induction false} ReplaceAllSelf(s: string, pat: string)
    requires |pat| > 0
    ensures ReplaceAll(s, pat, pat) == s
    decreases |s|
  {
    if |s| >= |pat| {
      if s[..|pat|] == pat {
        ReplaceAllSelf(s[|pat|..], pat);
        assert pat + s[|pat|..] == s;
      } else {
        ReplaceAllSelf(s[1..], pat);
        assert [s[0]] + s[1..] == s;
      }
    }
  }

  /** The first character of `pat` occurs nowhere else in it (true of `{environment}`), so two
      occurrences of `pat` can never overlap. */
  predicate HeadUnique(pat: string) {
    |pat| > 0 && forall i :: 0 < i < |pat| ==> pat[i] != pat[0]
  }

  /** With non-overlapping occurrences, a non-empty `a` free of `pat` cannot start an
      occurrence of `pat` in `a + pat + b`. */
  lemma NoOccurrenceAtStart(a: string, pat: string, b: string)
    requires HeadUnique(pat)
    requires |a| > 0 && !Contains(a, pat)
    ensures !OccursAt(a + pat + b, pat, 0)
  {
    var s := a + pat + b;
    if |a| >= |pat| {
      assert s[..|pat|] == a[..|pat|];
      assert !OccursAt(a, pat, 0);
    } else {
      assert s[|a|] == pat[0];
      assert s[..|pat|][|a|] != pat[|a|];
    }
  }

  /** Dropping the first character keeps a string free of `pat`. */
  lemma TailFree(a: string, pat: string)
    requires |a| > 0 && !Contains(a, pat)
    ensures !Contains(a[1..], pat)
  {
    var t := a[1..];
    forall i | 0 <= i <= |t| - |pat| ensures !OccursAt(t, pat, i) {
      if OccursAt(t, pat, i) {
        assert t[i..i + |pat|] == a[i + 1..i + 1 + |pat|];
        assert OccursAt(a, pat, i + 1);
        assert false;
      }
    }
  }

  /** Where no occurrence starts, `Replace` copies one character and moves on. */
  lemma ReplaceAllSkip(s: string, pat: string, rep: string)
    requires |pat| > 0 && |s| >= |pat| && !OccursAt(s, pat, 0)
    ensures ReplaceAll(s, pat, rep) == [s[0]] + ReplaceAll(s[1..], pat, rep)
  {
    assert s[..|pat|] != pat;
  }

  /** Where an occurrence starts, `Replace` emits `rep` and moves past the occurrence. */
  lemma ReplaceAllHit(pat: string, rep: string, b: string)
    requires |pat| > 0
    ensures ReplaceAll(pat + b, pat, rep) == rep + ReplaceAll(b, pat, rep)
  {
    var s := pat + b;
    assert s[..|pat|] == pat;
    assert s[|pat|..] == b;
  }

  /** `Replace` copies everything before the leftmost occurrence of `pat`, replaces that
      occurrence and goes on after it. Occurrences may overlap: the scan skips past each one. */
  lemma {:induction false} ReplaceAllFirstAt(s: string, pat: string, rep: string, i: nat)
    requires |pat| > 0 && OccursAt(s, pat, i)
    requires forall j :: 0 <= j < i ==> !OccursAt(s, pat, j)
    ensures ReplaceAll(s, pat, rep) == s[..i] + rep + ReplaceAll(s[i + |pat|..], pat, rep)
    decreases i
  {
    if i == 0 {
      assert s[..|pat|] == pat;
    } else {
      var t := s[1..];
      assert ReplaceAll(t, pat, rep) == t[..i - 1] + rep + ReplaceAll(t[i - 1 + |pat|..], pat, rep) by {
        OccursInTail(s, pat, i - 1);
        forall j | 0 <= j < i - 1 ensures !OccursAt(t, pat, j) {
          OccursInTail(s, pat, j);
        }
        ReplaceAllFirstAt(t, pat, rep, i - 1);
      }
      assert !OccursAt(s, pat, 0);
      ReplaceAllCopyStep(s, pat, rep, i);
    }
  }

  /** One character before the leftmost occurrence is copied through: the inductive step of
      `ReplaceAllFirstAt`. */
  lemma ReplaceAllCopyStep(s: string, pat: string, rep: string, i: nat)
    requires |pat| > 0 && 0 < i && i + |pat| <= |s| && !OccursAt(s, pat, 0)
    requires ReplaceAll(s[1..], pat, rep) == s[1..][..i - 1] + rep + ReplaceAll(s[1..][i - 1 + |pat|..], pat, rep)
    ensures ReplaceAll(s, pat, rep) == s[..i] + rep + ReplaceAll(s[i + |pat|..], pat, rep)
  {
    var t := s[1..];
    var u := ReplaceAll(s[i + |pat|..], pat, rep);
    assert t[i - 1 + |pat|..] == s[i + |pat|..];
    ReplaceAllSkip(s, pat, rep);
    calc {
      ReplaceAll(s, pat, rep);
      [s[0]] + (t[..i - 1] + rep + u);
      ([s[0]] + t[..i - 1]) + rep + u;
      { assert [s[0]] + t[..i - 1] == s[..i]; }
      s[..i] + rep + u;
    }
  }

  /** An occurrence in the tail of `s` is an occurrence in `s` one place later. */
  lemma OccursInTail(s: string, pat: string, j: nat)
    requires |s| > 0
    ensures OccursAt(s[1..], pat, j) <==> OccursAt(s, pat, j + 1)
  {
    if j + |pat| <= |s| - 1 {
      assert s[1..][j..j + |pat|] == s[j + 1..j + 1 + |pat|];
    }
  }

  /** Replacing in `a + pat + b` keeps `a`, replaces the occurrence right after it and goes on
      in `b`, provided `a` holds no occurrence and occurrences cannot overlap. The only pattern
      this is used with is `{environment}`, whose first character `{` does not recur in it. */
  lemma {:induction false} ReplaceAllAfter(a: string, pat: string, rep: string, b: string)
    requires HeadUnique(pat)
    requires !Contains(a, pat)
    ensures ReplaceAll(a + pat + b, pat, rep) == a + rep + ReplaceAll(b, pat, rep)
    decreases |a|
  {
    if |a| == 0 {
      assert a + pat + b == pat + b;
      ReplaceAllHit(pat, rep, b);
    } else {
      var s := a + pat + b;
      assert ReplaceAll(s, pat, rep) == [a[0]] + ReplaceAll(a[1..] + pat + b, pat, rep) by {
        NoOccurrenceAtStart(a, pat, b);
        ReplaceAllSkip(s, pat, rep);
        assert s[1..] == a[1..] + pat + b;
      }
      assert ReplaceAll(a[1..] + pat + b, pat, rep) == a[1..] + rep + ReplaceAll(b, pat, rep) by {
        TailFree(a, pat);
        ReplaceAllAfter(a[1..], pat, rep, b);
      }
      assert [a[0]] + a[1..] == a;
    }
  }

  /** `parts` joined with the string `sep` between neighbours (`string.Join`). */
  function JoinWith(parts: seq<string>, sep: string): string {
    if |parts| == 0 then ""
    else if |parts| == 1 then parts[0]
    else parts[0] + sep + JoinWith(parts[1..], sep)
  }

  /** Replacing `pat` by `rep` in a string cut into pieces by `pat` (none of which holds `pat`)
      gives the same pieces joined by `rep`: every occurrence is replaced, nothing else moves.
      Used with `{environment}`, whose occurrences cannot overlap because `{` does not recur. */
  lemma {:induction false} ReplaceAllJoin(parts: seq<string>, pat: string, rep: string)
    requires HeadUnique(pat)
    requires forall i :: 0 <= i < |parts| ==> !Contains(parts[i], pat)
    ensures ReplaceAll(JoinWith(parts, pat), pat, rep) == JoinWith(parts, rep)
    decreases |parts|
  {
    if |parts| >= 2 {
      ReplaceAllJoin(parts[1..], pat, rep);
      ReplaceAllAfter(parts[0], pat, rep, JoinWith(parts[1..], pat));
      assert JoinWith(parts, pat) == parts[0] + pat + JoinWith(parts[1..], pat);
    } else if |parts| == 1 {
      ReplaceAllAbsent(parts[0], pat, rep);
    }
  }

  /** `parts` joined by the single character `sep`. */
  function JoinOn(parts: seq<string>, sep: char): string {
    if |parts| == 0 then ""
    else if |parts| == 1 then parts[0]
    else parts[0] + [sep] + JoinOn(parts[1..], sep)
  }

  /** Joining peels off one piece at a time. */
  lemma JoinOnCons(a: string, rest: seq<string>, sep: char)
    requires |rest| >= 1
    ensures JoinOn([a] + rest, sep) == a + [sep] + JoinOn(rest, sep)
  {
    assert ([a] + rest)[1..] == rest;
  }

  /** `string.Split(sep)`: the maximal `sep`-free pieces, which join back to the input. */
  function SplitOn(s: string, sep: char): (parts: seq<string>)
    ensures |parts| >= 1
    ensures forall i :: 0 <= i < |parts| ==> sep !in parts[i]
    ensures JoinOn(parts, sep) == s
    decreases |s|
  {
    if |s| == 0 then [""]
    else
      var rest := SplitOn(s[1..], sep);
      assert s == [s[0]] + s[1..];
      if s[0] == sep then [""] + rest
      else
        var parts := [[s[0]] + rest[0]] + rest[1..];
        assert parts[1..] == rest[1..];
        parts
  }

  /** A `sep`-free string is a single piece. */
  lemma {:induction false} SplitOnFree(a: string, sep: char)
    requires sep !in a
    ensures SplitOn(a, sep) == [a]
    decreases |a|
  {
    if |a| > 0 {
      SplitOnFree(a[1..], sep);
      assert a == [a[0]] + a[1..];
    }
  }

  /** The first `sep` ends the first piece. */
  lemma {:induction false} SplitOnConcat(a: string, sep: char, b: string)
    requires sep !in a
    ensures SplitOn(a + [sep] + b, sep) == [a] + SplitOn(b, sep)
    decreases |a|
  {
    var s := a + [sep] + b;
    if |a| == 0 {
      assert s[1..] == b;
    } else {
      var t := s[1..];
      assert t == a[1..] + [sep] + b;
      SplitOnConcat(a[1..], sep, b);
      var rest := SplitOn(t, sep);
      assert rest[0] == a[1..] && rest[1..] == SplitOn(b, sep);
      assert s[0] == a[0] && a[0] != sep by {
        assert a[0] in a;
      }
      assert SplitOn(s, sep) == [[s[0]] + rest[0]] + rest[1..];
      assert [a[0]] + a[1..] == a;
    }
  }

  /** Splitting undoes joining: the pieces of a `sep`-joined list of `sep`-free pieces are
      exactly those pieces. */
  lemma {:induction false} SplitJoin(parts: seq<string>, sep: char)
    requires |parts| >= 1
    requires forall i :: 0 <= i < |parts| ==> sep !in parts[i]
    ensures SplitOn(JoinOn(parts, sep), sep) == parts
    decreases |parts|
  {
    if |parts| == 1 {
      SplitOnFree(parts[0], sep);
    } else {
      SplitJoin(parts[1..], sep);
      SplitOnConcat(parts[0], sep, JoinOn(parts[1..], sep));
      assert parts == [parts[0]] + parts[1..];
    }
  }
}

=== FILE: wrappers.dfy ===
/** Failure-carrying datatypes shared by every module of the model.
    `Option<T>` also stands for a C# reference that may be null (`None` is null). */
module Wrappers {

  datatype Option<+T> = None | Some(value: T) {

    /** The wrapped value, or `default` when there is none. */
    function GetOr(default: T): T {
      match this
      case Some(v) => v
      case None => default
    }
  }

  /** The CSharpFunctionalExtensions `Result<T>`: a value or an error message. */
  datatype Result<+T, +E> = Success(value: T) | Failure(error: E)
}
